=== FILE: README.md ===
# Event finance: a verified model of the list, dashboard, form and service logic

The application keeps the incomes and expenses of events. A Spring back end
stores events, incomes, expenses and their categories. A React front end lists
an event's transactions, totals them on a dashboard and a report, and edits
them through two forms. This project models the parts of that code that make
decisions, as pure Dafny functions over immutable data, and proves what they
promise.

- **Transaction lists** (`ExpenseList`, `IncomeList`, shared parts in
  `TxnFilters`, `Pagination` and `CategoryOptions`).
  - `applyFilters` is six optional `filter` passes: category id, minimum
    amount, maximum amount, first date, last date and a case-insensitive
    search.
  - Paging: pages of five, `Math.ceil` for the page count, `slice` for a page,
    and `changePage` refusing pages that do not exist.
  - The category drop-down is built through a JavaScript `Map` keyed by
    category id. `JsMap` models that `Map` as its list of entries.
- **Dashboard** (`Dashboard`, with `MoneyMaps` for the totals objects).
  - The date window `inRange`.
  - The fold of `loadDashboard` into per-event rows, grand totals,
    per-category totals and per-source sub-totals.
  - The rows of the category export, and the expand toggles.
- **Report** (`Report`): per-event summaries, the date filter and the rows of
  the spreadsheet export.
- **Forms** (`IncomeForm`, `ExpenseForm`, shared parts in `FormFields`).
  - Edit-mode initialisation, `validate`, `handleChange` (including the
    category lookup by id) and `handleSubmit`.
  - JavaScript's `Number`, `parseFloat` and `parseInt` are modelled in
    `JsNumber`; `trim`, `toLowerCase`, `includes` and string `<=` in `Text`.
- **Footer** (`Footer`): the newsletter address check
  `/\S+@\S+\.\S+/.test(email)` and the collapsible sections.
- **Back end** (`Entities`, `IncomeService`, `ExpenseService`,
  `EventService`).
  - Each repository is a `map<int, Entity>`.
  - Every service call is a function from the old store to the new store and
    its result.
  - Java `null` is `None`.

Amounts are exact `real`s, standing for JavaScript numbers and Java `Double`s.
An unavailable or failed request is an `Option` argument or a `Failed`
outcome. The order in which `Promise.all` finishes its requests is not
modelled: events are taken one after the other.

## Model

| member | source | states |
|---|---|---|
| `ExpenseList.ApplyFilters` | frontend/src/components/ExpenseList.jsx:55-85 | The view starts on page 1. It holds an order-preserving subsequence of the loaded expenses. An expense is in it exactly when it meets every criterion that is switched on. With every field empty it is the loaded list itself. |
| `ExpenseList.KeptExpense` | frontend/src/components/ExpenseList.jsx:58-78 | A kept expense meets each switched-on criterion. Its category id is `Number(categoryId)`. Its amount lies within the inclusive bounds. Its date lies between the date bounds as strings. Its description or category name contains the lowered search text. |
| `ExpenseList.UniqueCategories` | frontend/src/components/ExpenseList.jsx:149-151 | The drop-down has no null entry and pairwise-distinct ids. Each entry is a category some loaded expense carries. Every id a loaded expense carries is present. The entries are in ascending name order under the locale's collation `le`, for any `le` that is total and transitive. |
| `IncomeList.ApplyFilters` | frontend/src/components/IncomeList.jsx:61-95 | As for expenses: an order-preserving subsequence of the loaded incomes. An income is kept exactly when it meets every switched-on criterion. All-empty filters give the identity. The page goes back to 1. |
| `IncomeList.KeptIncome` | frontend/src/components/IncomeList.jsx:64-91 | A kept income meets each switched-on criterion. The search looks at the source name or the description, never the category name. |
| `IncomeList.UniqueCategories` | frontend/src/components/IncomeList.jsx:168 | No null entry, pairwise-distinct ids, only categories carried by loaded incomes, and every loaded id present. |
| `IncomeList.MinimumAmountKeeps` | frontend/src/components/IncomeList.jsx:70-72 | A minimum typed as a whole number `n` keeps exactly the incomes whose amount is at least `n`. |
| `TxnFilters.ApplyIsOnePass` | frontend/src/components/ExpenseList.jsx:56-79 | The chain of switched-on `filter` passes, in the source's order, equals one pass by the conjunction of the criteria. |
| `TxnFilters.ApplyAsChain` | frontend/src/components/ExpenseList.jsx:58-79 | A pass guarded by `if (field)` is a filter by "field empty, or criterion holds". |
| `TxnFilters.ApplySpec` | frontend/src/components/IncomeList.jsx:61-95 | The chain keeps an order-preserving subsequence: exactly the records that meet every switched-on criterion. |
| `TxnFilters.ApplyNoFilters` | frontend/src/components/ExpenseList.jsx:104-113 | After `clearFilters` the list shows every loaded record, in order. |
| `TxnFilters.KeptIsApply` | frontend/src/components/IncomeList.jsx:61-95 | The one-pass filter the views use returns the same list as the source's chain of passes. |
| `TxnFilters.CategoryCriterionById` | frontend/src/components/ExpenseList.jsx:58-60 | For an option value that is the digits of an id, the category criterion holds exactly for records whose category has that id. |
| `TxnFilters.NullCategoryNeverMatches` | frontend/src/components/ExpenseList.jsx:59 | A record without a category never passes a switched-on category criterion. |
| `TxnFilters.NoFiltersMatchAll` | frontend/src/components/ExpenseList.jsx:38-45 | With the initial (all-empty) filters every record matches and the search is off. |
| `TxnFilters.BlankSearchMatchesAll` | frontend/src/components/ExpenseList.jsx:73-78 | A whitespace-only search text switches the search off. Any other text is searched for lowered but untrimmed. |
| `TxnFilters.SearchIgnoresCase` | frontend/src/components/IncomeList.jsx:86-90 | Two search texts that lower to the same string switch the search on alike and keep the same records. |
| `Pagination.PageCount` | frontend/src/components/ExpenseList.jsx:137 | The page count is the least `c` with `5c >= n`: `Math.ceil(n / 5)`. |
| `Pagination.PageContents` | frontend/src/components/ExpenseList.jsx:138-141 | Page `p >= 1` is the run of at most five items starting at offset `5(p-1)`, cut at the end of the list. |
| `Pagination.PageNonEmptyIff` | frontend/src/components/IncomeList.jsx:156-160 | A page has items exactly when its number lies between 1 and the page count. |
| `Pagination.PagesReconstruct` | frontend/src/components/ExpenseList.jsx:137-141 | Pages 1 to `pageCount`, read in turn, give back the whole filtered list. |
| `Pagination.ShowFiltered` | frontend/src/components/ExpenseList.jsx:84 | A new filtered list is shown from page 1, which shows its first five items. |
| `Pagination.NavigateSpec` | frontend/src/components/ExpenseList.jsx:143-146 | A request is honoured exactly when its page has items. Any other request (0, negative, past the end) leaves the view unchanged. The view stays valid. A non-empty list always shows a non-empty page. |
| `Pagination.NavigateEmpty` | frontend/src/components/IncomeList.jsx:162-165 | On an empty list every request is refused. |
| `CategoryOptions.Distinct` | frontend/src/components/IncomeList.jsx:168 | `[...new Map(pairs).values()].filter(Boolean)` has pairwise-distinct ids, exactly the ids of the present categories, only categories that occur, and for each id the last category given for it. |
| `CategoryOptions.SortByName` | frontend/src/components/ExpenseList.jsx:151 | For any total, transitive collation `le` standing for `localeCompare(a, b) <= 0`, the sort returns a permutation of its input in ascending name order under `le`. |
| `CategoryOptions.CodePointIsCollation` | frontend/src/components/ExpenseList.jsx:151 | Code-point order on names is total and transitive, so it is a collation the sort accepts. |
| `CategoryOptions.CaseBlindIsCollation` | frontend/src/components/ExpenseList.jsx:151 | Code-point order after ASCII lowering is total and transitive too. |
| `CategoryOptions.CollationDecidesMixedCase` | frontend/src/components/ExpenseList.jsx:151 | The order depends on the collation: code-point order sorts "apple", "Banana" as "Banana", "apple", and a case-blind collation keeps "apple" first. |
| `CategoryOptions.DistinctIdsIffCount` | frontend/src/components/ExpenseList.jsx:149-151 | A list of categories has distinct ids exactly when it has as many ids as entries. |
| `JsMap.FromPairs` | frontend/src/components/ExpenseList.jsx:150 | `new Map(pairs)` has each key of the pairs once, and for each key the value of the last pair with that key. |
| `Seqs.FilterIsSubsequence` | frontend/src/components/ExpenseList.jsx:59 | `filter` keeps an order-preserving subsequence of its input. |
| `Seqs.FilterFuse` | frontend/src/components/ExpenseList.jsx:58-66 | Two `filter` passes in a row equal one pass by the conjunction. |
| `Seqs.FilterCounts` | frontend/src/components/ExpenseList.jsx:59 | `filter` keeps each passing element as many times as it occurs in the input, and no failing one. |
| `Seqs.SumFrom` | frontend/src/components/ReportDashboard.jsx:28-29 | `reduce((acc, x) => acc + x.amount, acc0)` is `acc0` plus the sum of the amounts. |
| `Text.TrimEmptyIffBlank` | frontend/src/components/ExpenseList.jsx:73 | `s.trim()` is empty exactly when every character of `s` is whitespace. |
| `Text.Lower` | frontend/src/components/ExpenseList.jsx:74 | `toLowerCase` keeps the length and maps each character on its own, upper-case ASCII letters to lower case. |
| `Text.Includes` | frontend/src/components/ExpenseList.jsx:77 | `hay.includes(needle)` holds exactly when the needle occurs at some index of the haystack. |
| `Text.LexLeIff` | frontend/src/components/ExpenseList.jsx:68-71 | String `<=` holds exactly when `a` is a prefix of `b`, or `a` is smaller at the first index where they differ. |
| `Text.LexLeTotal` | frontend/src/components/IncomeList.jsx:78-83 | Any two date strings are comparable. |
| `Text.LexLeTransitive` | frontend/src/components/IncomeList.jsx:78-83 | String `<=` is transitive. |
| `Text.BeforeFirst` | frontend/src/components/IncomeForm.jsx:39 | `split('T')[0]` is a prefix of the text with no `T` in it, and it stops at the first `T` when there is one. |
| `JsNumber.NumberOfNatText` | frontend/src/components/ExpenseList.jsx:59 | `Number` of the digits of a natural number is that number. |
| `JsNumber.ParseIntOfNatText` | frontend/src/components/IncomeForm.jsx:70 | `parseInt` of the digits of a natural number is that number. |
| `JsNumber.ParseFloatAgreesWithNumber` | frontend/src/components/IncomeForm.jsx:83 | On non-blank decimal text that `Number` reads as a number, `parseFloat` reads the same number. Hexadecimal, where the two differ, is outside the modelled syntax. |
| `JsNumber.ParseFloatOfWord` | frontend/src/components/ExpenseForm.jsx:64 | Text starting with a character that cannot begin a decimal literal parses to `NaN`. `Infinity` is outside the modelled syntax. |
| `MoneyMaps.AddTo` | frontend/src/pages/DashboardPage.jsx:81 | `m[k] = (m[k] \|\| 0) + amount` adds `k` to the keys, raises `k`'s total by the amount, and leaves every other key as it was. |
| `MoneyMaps.SumValuesAddTo` | frontend/src/pages/DashboardPage.jsx:81 | Adding an amount under any key raises the sum of all the map's values by that amount. |
| `MoneyMaps.ProtoKeyDropsAmount` | frontend/src/pages/DashboardPage.jsx:81 | As written, a non-zero amount filed under the key `__proto__` is missing from the sum of the totals. `AddTo` accounts for it. |
| `Dashboard.InRangeSpec` | frontend/src/pages/DashboardPage.jsx:49-54 | An empty start or end leaves that side open. Both bounds are inclusive. A bound that is not a date admits nothing. |
| `Dashboard.OrElse` | frontend/src/pages/DashboardPage.jsx:78-79 | `s \|\| fallback` is `s` when `s` is a non-empty string, and the fallback otherwise. |
| `Dashboard.Post` | frontend/src/pages/DashboardPage.jsx:78-84 | One record raises its category's total and its (category, source) sub-total by its amount, and no other total or sub-total. Its category becomes a key of the category map, and its source a key of that category's sub-map. Every other category's sub-map is unchanged. It keeps sub-totals summing to category totals. It raises the sum of the category totals by the amount. |
| `Dashboard.PostAll` | frontend/src/pages/DashboardPage.jsx:77-99 | After the `reduce` over an event's records, each category's total has grown by the amounts of exactly the records filed under it. Each (category, source) sub-total has grown by the amounts of exactly the records filed under both. The category keys are the old ones plus the categories of the records. The category totals still equal the sums of their sub-totals, and their sum has grown by the sum of all the amounts. |
| `Dashboard.PostAllAppend` | frontend/src/pages/DashboardPage.jsx:77-84 | The maps are shared across events: posting two lists of records in turn is posting their concatenation. |
| `Dashboard.PostAllSourceKeys` | frontend/src/pages/DashboardPage.jsx:77-96 | After the `reduce`, the source names under a category are the old ones plus the sources of exactly the records filed under that category. |
| `Dashboard.Visit` | frontend/src/pages/DashboardPage.jsx:69-120 | One event adds its row: the in-window income and expense sums and their difference, or zeros on a failed fetch. It adds the row's totals to the running sums. A failed fetch leaves every map untouched. |
| `Dashboard.VisitKeepsBooks` | frontend/src/pages/DashboardPage.jsx:77-104 | One event keeps sub-totals consistent with category totals. It raises the category totals and the grand total by the same amount. |
| `Dashboard.VisitAll` | frontend/src/pages/DashboardPage.jsx:68-122 | The fold appends one row per event, in event order. |
| `Dashboard.RowsAt` | frontend/src/pages/DashboardPage.jsx:106-119 | Row `k` is event `k`'s row. |
| `Dashboard.VisitAllSums` | frontend/src/pages/DashboardPage.jsx:103-104 | `incomeSum` and `expenseSum` are the sums of the rows' income and expense totals. |
| `Dashboard.VisitAllKeepsBooks` | frontend/src/pages/DashboardPage.jsx:77-104 | Over all events the maps stay consistent, and the category totals stay in step with the grand totals. |
| `Dashboard.VisitAllPostsAll` | frontend/src/pages/DashboardPage.jsx:63-99 | The four maps after all events are the posting, in event order, of every successfully fetched event's in-window records. A failed event contributes none. |
| `Dashboard.LoadDashboard` | frontend/src/pages/DashboardPage.jsx:56-139 | Loading shows one row per event. Grand income and expense are the sums of the rows, and the balance is their difference. Each category total is the sum of the in-window amounts, over all successfully fetched events, of the records whose category name (or `Uncategorized`) is that category. Each source sub-total is the same sum restricted to the source name or description (or `Unnamed Source` / `Unnamed Expense`). The categories present are exactly those some such record is filed under. Per category the sub-totals sum to the total, and the category totals sum to the grand income (or expense). A failed event list changes nothing. |
| `Dashboard.LoadDashboardSourceNames` | frontend/src/pages/DashboardPage.jsx:56-135 | After a load, the source names the dashboard lists under a category (`Object.entries(incomeSources[cat])`) are exactly the sources of the posted records filed under it: source names for incomes, descriptions for expenses, or the fallbacks. |
| `Dashboard.FailedEventsAddNothing` | frontend/src/pages/DashboardPage.jsx:112-120 | Events whose fetch fails add rows of 0/0/0 and change neither the sums nor any map. |
| `Dashboard.AllFailedLoadsZeros` | frontend/src/pages/DashboardPage.jsx:112-129 | When every event fails, the totals are zero, the maps are empty and every row reads zeros. |
| `Dashboard.KeysOnce` | frontend/src/pages/DashboardPage.jsx:143-148 | `Array.from(new Set(keys))` lists each key exactly once. |
| `Dashboard.ExportRows` | frontend/src/pages/DashboardPage.jsx:141-156 | The export is the header and then one row per category in the union of the income and expense keys, none repeated. Each row shows that category's two totals, 0 for a side with no entry. |
| `Dashboard.Toggle` | frontend/src/pages/DashboardPage.jsx:169-182 | Toggling a category flips its expanded flag (a never-toggled category counts as closed) and no other. |
| `Dashboard.ToggleTwice` | frontend/src/pages/DashboardPage.jsx:169-174 | Toggling the same category twice leaves every category as open as before. |
| `Dashboard.InheritedNameStartsOpen` | frontend/src/pages/DashboardPage.jsx:169-173 | As written, a category named like an `Object.prototype` member shows open before any toggle, and its first toggle closes it. `Toggle` shows it closed, then open. |
| `Dashboard.ToggleAgreesOnOwnNames` | frontend/src/pages/DashboardPage.jsx:169-182 | For every category not named like an `Object.prototype` member, the toggle as written and `Toggle` show the same flag. |
| `Report.Summarize` | frontend/src/components/ReportDashboard.jsx:25-37 | A summary carries the event's id, name and date, the sums of all its incomes and of all its expenses (no date filter), and their difference. |
| `Report.SummarizeAll` | frontend/src/components/ReportDashboard.jsx:24-39 | One summary per event, in event order. |
| `Report.LoadData` | frontend/src/components/ReportDashboard.jsx:22-42 | After a load both lists hold the summaries, one per event. A failed load changes nothing. |
| `Report.FilterByDate` | frontend/src/components/ReportDashboard.jsx:44-50 | Without both dates the filter is a no-op. Otherwise it shows the order-preserving subsequence of all loaded events dated between the two, inclusive. |
| `Report.FilterByDateIdempotent` | frontend/src/components/ReportDashboard.jsx:45-49 | The filter reads the full list, not the last result, so its outcome does not depend on the previous filter. Applying it twice is applying it once. |
| `Report.ExportSheet` | frontend/src/components/ReportDashboard.jsx:52-63 | Nothing is exported for an empty list. Otherwise the sheet is the header and one row per shown event, in order, with its name, date and three totals. |
| `Report.ExportedRowsBalance` | frontend/src/components/ReportDashboard.jsx:28-63 | After a load and any date filter, every exported row's balance is its income less its expense. |
| `FormFields.AmountFrom` | frontend/src/components/IncomeForm.jsx:38 | `amount \|\| ''`: a missing or zero amount leaves the input empty; any other keeps the number. |
| `FormFields.DateFrom` | frontend/src/components/IncomeForm.jsx:39 | The initial date has no `T` and is a prefix of the given date. A missing date gives `''`. |
| `FormFields.DateFromDateTime` | frontend/src/components/ExpenseForm.jsx:38 | The date part of `day + "T" + time` is `day`, and a plain date passes unchanged. |
| `FormFields.FindCategory` | frontend/src/components/IncomeForm.jsx:70-71 | The result is null exactly when no category's id is `parseInt(value)`. Otherwise it is the first category whose id is. |
| `FormFields.PickingAnOptionSelectsIt` | frontend/src/components/ExpenseForm.jsx:48-49 | With distinct ids, choosing the option whose value is a category's id selects that category. |
| `IncomeForm.FromDraft` | frontend/src/components/IncomeForm.jsx:36-42 | Edit mode fills each input from the edited income: missing text becomes `''`, a missing category `null`, and the date is cut at the first `T`. |
| `IncomeForm.Init` | frontend/src/components/IncomeForm.jsx:34-55 | Editing a given income fills the form from it. Leaving edit mode clears the form. Both clear the errors. Editing with no income changes nothing. |
| `IncomeForm.RejectedIffNotPositive` | frontend/src/components/IncomeForm.jsx:60 | The amount guard rejects exactly the amounts that do not read as a positive number; an empty text reads as none. |
| `IncomeForm.Validate` | frontend/src/components/IncomeForm.jsx:57-65 | The source name gets an error exactly when it is blank. The amount gets one exactly when it does not read as a positive number. The date gets one exactly when it is empty, and the category exactly when none is chosen. The description never does, so the form passes exactly when all four hold. |
| `IncomeForm.AcceptedAmountIsPositive` | frontend/src/components/IncomeForm.jsx:60-83 | An amount the guard accepts is sent as a finite positive number, the one `Number` reads. |
| `IncomeForm.Submit` | frontend/src/components/IncomeForm.jsx:77-96 | A payload is sent exactly when validation records no error. A rejected form is kept. The payload is the form with the amount parsed and the event id. Its amount is positive, its date set, its category present and its source name non-blank. The form is cleared after sending exactly when not editing. |
| `IncomeForm.Change` | frontend/src/components/IncomeForm.jsx:67-75 | The named input takes the new value. The category input takes the category `find` picks, or null. Every other input and the errors stay. |
| `ExpenseForm.Init` | frontend/src/components/ExpenseForm.jsx:33-43 | Any `initialValues` fills the form, with defaults for missing members and the date cut at `T`. A null one changes nothing. |
| `ExpenseForm.InitFromNothing` | frontend/src/components/ExpenseForm.jsx:33-43 | The default `{}` gives the empty form. |
| `ExpenseForm.EditUnchangedSendsBack` | frontend/src/components/ExpenseForm.jsx:33-75 | Opening a stored expense (non-zero amount, plain date, description and category present) and saving it unchanged sends back its amount, date, description and category. |
| `ExpenseForm.Submit` | frontend/src/components/ExpenseForm.jsx:55-75 | Nothing is sent exactly when there is no category, and then the form is kept. Otherwise the form is sent with the amount parsed and the event id, then cleared, in edit mode too. |
| `ExpenseForm.UncheckedAmount` | frontend/src/components/ExpenseForm.jsx:55-66 | The amount is not checked. With a category chosen, an empty amount is sent as `NaN`. So is any typed amount starting with a character that cannot begin a decimal literal. The empty text is what the number input holds for unparsable text and in add mode. |
| `ExpenseForm.Change` | frontend/src/components/ExpenseForm.jsx:45-53 | The named input takes the new value, or the picked category. Every other input stays. |
| `Footer.IsValidEmail` | frontend/src/components/Footer.jsx:26 | The address check holds exactly when some substring is non-space characters, `@`, non-space characters, `.`, non-space characters. |
| `Footer.EmailExamples` | frontend/src/components/Footer.jsx:26 | `a@b.c` is accepted. `a@bc` (no dot after the `@`) and `a @b.c` (a space before it) are rejected. |
| `Footer.Subscribe` | frontend/src/components/Footer.jsx:24-34 | A rejected address keeps the input and shows the error. An accepted one clears both. |
| `Footer.SubscribeTwice` | frontend/src/components/Footer.jsx:27-32 | Subscribing again right after a success finds an empty input and shows the error. |
| `Footer.Toggle` | frontend/src/components/Footer.jsx:56-61 | `toggleAccordion` flips the given section and no other. |
| `Footer.ToggleTwice` | frontend/src/components/Footer.jsx:56-61 | Toggling a section twice restores the accordion. |
| `Entities.ResolveCategory` | backend/src/main/java/com/eventmanagementsystem/backend/service/IncomeService.java:50-53 | A submitted category whose id is stored is replaced by the stored category. Otherwise the record keeps the category it had. |
| `Entities.ResolveIdempotent` | backend/src/main/java/com/eventmanagementsystem/backend/service/ExpenseService.java:45-48 | Resolving the same submitted category twice is resolving it once. |
| `IncomeService.ByEvent` | backend/src/main/java/com/eventmanagementsystem/backend/service/IncomeService.java:26-28 | Exactly the incomes whose event is the given one, unchanged. |
| `IncomeService.GetById` | backend/src/main/java/com/eventmanagementsystem/backend/service/IncomeService.java:30-32 | The stored income, or none for an unknown id. |
| `IncomeService.Create` | backend/src/main/java/com/eventmanagementsystem/backend/service/IncomeService.java:34-41 | The income is stored under a fresh id with its category resolved. No other income changes. |
| `IncomeService.Update` | backend/src/main/java/com/eventmanagementsystem/backend/service/IncomeService.java:43-57 | An unknown id returns null and leaves the store alone. Otherwise source name, amount, date and description are overwritten, nulls included. The category changes only to a stored one. Id and event stay, and no other income changes. |
| `IncomeService.Delete` | backend/src/main/java/com/eventmanagementsystem/backend/service/IncomeService.java:59-61 | Only that id goes. |
| `IncomeService.UpdateKeepsKeysAndEvents` | backend/src/main/java/com/eventmanagementsystem/backend/service/IncomeService.java:44-55 | An update keeps every income under its own id, and every event's set of incomes. |
| `IncomeService.UpdateIdempotent` | backend/src/main/java/com/eventmanagementsystem/backend/service/IncomeService.java:43-57 | Sending the same update twice is sending it once. |
| `IncomeService.CreateThenFind` | backend/src/main/java/com/eventmanagementsystem/backend/service/IncomeService.java:26-41 | A created income is found by its id and among its event's incomes, where it was not before. |
| `IncomeService.DeleteThenFind` | backend/src/main/java/com/eventmanagementsystem/backend/service/IncomeService.java:26-61 | After a delete the id is found nowhere, and every event's other incomes are as before. |
| `ExpenseService.ByEvent` | backend/src/main/java/com/eventmanagementsystem/backend/service/ExpenseService.java:26-28 | Exactly the expenses whose event is the given one, unchanged. |
| `ExpenseService.GetById` | backend/src/main/java/com/eventmanagementsystem/backend/service/ExpenseService.java:30-32 | The stored expense, or none for an unknown id. |
| `ExpenseService.Create` | backend/src/main/java/com/eventmanagementsystem/backend/service/ExpenseService.java:34-41 | The expense is stored under a fresh id with its category resolved. No other expense changes. |
| `ExpenseService.Update` | backend/src/main/java/com/eventmanagementsystem/backend/service/ExpenseService.java:43-55 | An unknown id returns null and leaves the store alone. Otherwise the category changes only to a stored one, and amount, date and description are overwritten. Id and event stay, and no other expense changes. |
| `ExpenseService.Delete` | backend/src/main/java/com/eventmanagementsystem/backend/service/ExpenseService.java:57-59 | Only that id goes. |
| `ExpenseService.UpdateKeepsKeysAndEvents` | backend/src/main/java/com/eventmanagementsystem/backend/service/ExpenseService.java:44-53 | An update keeps every expense under its own id, and every event's set of expenses. |
| `ExpenseService.UpdateIdempotent` | backend/src/main/java/com/eventmanagementsystem/backend/service/ExpenseService.java:43-55 | Sending the same update twice is sending it once. |
| `ExpenseService.CreateThenFind` | backend/src/main/java/com/eventmanagementsystem/backend/service/ExpenseService.java:26-41 | A created expense is found by its id and among its event's expenses, where it was not before. |
| `ExpenseService.DeleteThenByEvent` | backend/src/main/java/com/eventmanagementsystem/backend/service/ExpenseService.java:57-59 | After a delete an event's expenses are the ones it had, less that id. |
| `EventService.GetById` | backend/src/main/java/com/eventmanagementsystem/backend/service/EventService.java:22-24 | The stored event, or none for an unknown id. |
| `EventService.Create` | backend/src/main/java/com/eventmanagementsystem/backend/service/EventService.java:26-28 | The event is stored as given under a fresh id. No other event changes. |
| `EventService.Update` | backend/src/main/java/com/eventmanagementsystem/backend/service/EventService.java:30-38 | An unknown id returns null and leaves the store alone. Otherwise name, date, location and description are overwritten. The id and the income and expense lists stay. |
| `EventService.Delete` | backend/src/main/java/com/eventmanagementsystem/backend/service/EventService.java:40-42 | Only that id goes from the event store. |
| `EventService.GetAfterOperations` | backend/src/main/java/com/eventmanagementsystem/backend/service/EventService.java:22-42 | `getEventById` after a create finds the new event. After an update it finds what the update returned. After a delete it finds nothing. Any other id reads as before. |
| `EventService.UpdateKeepsKeys` | backend/src/main/java/com/eventmanagementsystem/backend/service/EventService.java:30-38 | An update keeps every event under its own id. |

## Findings

| source | as written | input that shows it | evidently intended | confidence | as-written member | corrected member |
|---|---|---|---|---|---|---|
| frontend/src/pages/DashboardPage.jsx:81 | `incomeCategoryMap[cat] = (incomeCategoryMap[cat] \|\| 0) + income.amount` on a plain `{}`: for `cat` = `__proto__` the read finds `Object.prototype` and the assignment is ignored | an income of 100 whose category is named `__proto__` | every in-window amount lands in its category's total, so the category totals sum to the grand income | medium, not executed | `MoneyMaps.ProtoKeyDropsAmount` (on `MoneyMaps.AddToAsWritten`) | `MoneyMaps.SumValuesAddTo` (on `MoneyMaps.AddTo`) |
| frontend/src/pages/DashboardPage.jsx:169-173 | `[cat]: !prev[cat]` on a plain `{}`: a never-toggled `constructor` reads the inherited `Object` function, which is truthy | a category named `constructor`, before and after its first click | a never-toggled category is closed, and a click opens it | medium, not executed | `Dashboard.InheritedNameStartsOpen` (on `Dashboard.ToggleAsWritten`) | `Dashboard.Toggle`, with `Dashboard.ToggleTwice` |

## Left out

- Rendering and global effects are not modelled:
  - JSX, modals, charts and icons;
  - the scroll and resize listeners;
  - the dark-mode toggle;
  - `alert`, `window.confirm` and `window.print`.
- HTTP calls are not modelled. A fetched list is an argument. A request that fails is `None` or a `Failed` outcome.
- `fetchCategories` in the forms and the dashboard is not modelled: the loaded categories are an argument.
- Writing files is not modelled (XLSX, jsPDF, `exportToPDF`). Only the rows handed to the writer are.
- Number formatting is not modelled (`toFixed`, `Intl.NumberFormat`, `toLocaleDateString`). Export cells hold the exact amounts.
- React effect scheduling and state batching are not modelled. The page reset is part of `ApplyFilters`. The forms' `handleChange` reads the current form.
- The order in which `Promise.all` completes is not modelled: events are processed one by one, in list order.
- Key order is not modelled:
  - the insertion order of the dashboard's category and source objects;
  - the order of the category export rows;
  - the order of the income category drop-down. `new Map(...)` keeps a key where it first appeared, so the source shows categories in first-occurrence order. `JsMap.FromPairs` builds them in that order, but no contract of `CategoryOptions.Distinct` or `IncomeList.UniqueCategories` states it.
- `Dashboard.ExportRows`: states the set of categories and each row's totals, not their order.
- The dashboard's totals and flags are plain `{}` objects, which inherit the members of `Object.prototype` (`constructor`, `toString`, `__proto__` and the others in `MoneyMaps.InheritedNames`). The model treats them as maps, which is what the code evidently intends (see "Findings"). The members below state that intended behaviour; for a category, source or description named like an inherited member the code as written does otherwise:
- `MoneyMaps.AddTo`: holds only for keys not in `InheritedNames`. For `constructor` and the like, `(m[k] || 0) + amount` concatenates onto the inherited function and stores a string. For `__proto__` the write is dropped.
- `MoneyMaps.SumValuesAddTo`: holds only for keys not in `InheritedNames`. `MoneyMaps.ProtoKeyDropsAmount` shows the failure for `__proto__`.
- `Dashboard.Post`: holds only for category and source keys not in `InheritedNames`. For an inherited category, `!incomeSourcesMap[cat]` finds the inherited member, so no `{}` is created. The sub-totals are then written onto that shared member and outlive the load.
- `Dashboard.PostAll`: as for `Dashboard.Post`, for every record of the list.
- `Dashboard.VisitKeepsBooks`: consistency and drift hold only when no record's category or source is named like an inherited member.
- `Dashboard.VisitAllKeepsBooks`: as for `Dashboard.VisitKeepsBooks`, over all events.
- `Dashboard.VisitAllPostsAll`: as for `Dashboard.PostAll`.
- `Dashboard.PostAllSourceKeys`: as for `Dashboard.PostAll`.
- `Dashboard.LoadDashboardSourceNames`: as for `Dashboard.LoadDashboard`.
- `Dashboard.LoadDashboard`: the per-category, per-source and sum laws hold only when no posted record's category or source is named like an inherited member.
- `Dashboard.ExportRows`: holds only for category keys not in `InheritedNames`. As written, `categoryTotals.incomes[cat]?.toFixed(2)` finds the inherited member for a category present only on the other side. Calling `toFixed` on it throws instead of giving `0.00`.
- `Dashboard.Toggle`: holds only for categories not in `InheritedNames`. `Dashboard.InheritedNameStartsOpen` shows the code as written, and `Dashboard.ToggleAgreesOnOwnNames` shows the two agree on every other name.
- `CategoryOptions.SortByName`: the collation `localeCompare` uses is a parameter, assumed only total and transitive. Which collation a browser's locale picks (ICU's case and accent levels) is not modelled. The relative order of two categories with equal names is not stated.
- `ExpenseList.UniqueCategories`: sorted under the same collation parameter. With code-point order in its place the drop-down would show "Banana" before "apple", where a case-blind locale shows "apple" first (`CategoryOptions.CollationDecidesMixedCase`).
- `Text.LexLe` orders strings by Unicode scalar values, since a Dafny `char` is one. JavaScript's `<=` compares UTF-16 code units. The two agree except between a character from U+E000 to U+FFFF and one above U+FFFF: JavaScript puts `"\u{10000}"` (code units 0xD800 0xDC00) before `"\uFFFF"`, and the model puts it after. Dates, the other strings compared, are ASCII, where the two agree. Category names with such characters can sort differently under `CategoryOptions.CodePointLe`.
- Floating point is not modelled: amounts are exact reals, so sums neither round nor overflow, and parsing never overflows. A decimal text too large for a double is `Infinity` in JavaScript, and the income form's guard accepts it. The model reads it as that large finite number, so `IncomeForm.AcceptedAmountIsPositive` and `IncomeForm.Submit` call it finite.
- `IncomeForm.AcceptedAmountIsPositive`: "finite" holds for exact reals only. An accepted text longer than 308 digits is `Infinity` in JavaScript.
- `Number`, `parseFloat` and `parseInt` are modelled on decimal text only:
  - an optional sign;
  - digits with an optional fraction;
  - surrounding whitespace.
- Exponents, `Infinity`, hexadecimal and other radix prefixes are not modelled. On such text the model reads only a decimal prefix, where JavaScript reads the whole literal:
  - `ToNumber` reads `"1e3"`, `"0x10"` and `"Infinity"` as `NaN`; JavaScript gives 1000, 16 and `Infinity`.
  - `ParseFloat` reads `"1e3"` as 1 and `"Infinity"` as `NaN`; JavaScript gives 1000 and `Infinity`.
  - `ParseInt` reads `"0x1A"` as 0; JavaScript gives 26.
- `toLowerCase` is modelled as ASCII-only. Unicode case mapping is not modelled.
- `new Date(s).getTime()` is a parameter of `Dashboard.InRange`, returning `None` for an invalid date.
- Null data is not modelled:
  - null dates in the lists, report and dashboard (all dates are strings);
  - null amounts (all front-end amounts are numbers). The back end stores and copies a null `amount`. In the source a null amount acts as 0 in `+`, `>=` and `<=`;
  - null category names (names are strings). The expense search skips them through `?.`. The name sort `a.name.localeCompare(b.name)` (`ExpenseList.jsx:151`) throws on one, and the model's `SortByName` does not.
- `Pagination.PageNonEmptyIff` requires a page number of at least 0. `slice` reads a negative page from the end of the list. `changePage` never stores such a page.
- The JPA layer is not modelled:
  - id generation is the `newId` argument, an id not yet in use;
  - foreign keys are not modelled. `Create` stores an income or expense whose event id, or a category id it does not resolve, names no stored row. The `@ManyToOne @JoinColumn` references would make the database reject that insert;
  - a create whose body carries an existing id (a JPA merge) is not modelled;
  - `deleteById` on a missing id is a no-op;
  - `CascadeType.ALL` removal of an event's incomes and expenses is not modelled.
- `Expense.java` is not part of this model. The expense entity's fields are the ones `ExpenseService` reads and writes.
- The controllers, repositories, category services, the category and event forms, and the events and category pages are not part of this model. They delegate or copy fields.

=== FILE: category_options.dfy ===
/**
 * The category drop-down of the transaction lists: the categories of the
 * loaded records, one per id, built with a JavaScript `Map` keyed by
 * `category?.id` and stripped of the null entry.
 */
module CategoryOptions {
  import opened Wrappers
  import opened Text
  import opened Records
  import opened JsMap

  /** `x.category?.id`: absent for a record without a category. */
  function KeyOf(c: Option<Category>): Option<int> {
    if c.Some? then Some(c.value.id) else None
  }

  /** `xs.map(x => [x.category?.id, x.category])`. */
  function Pairs(cs: seq<Option<Category>>): (r: seq<(Option<int>, Option<Category>)>)
    ensures |r| == |cs|
    ensures forall i :: 0 <= i < |cs| ==> r[i] == (KeyOf(cs[i]), cs[i])
  {
    if cs == [] then [] else [(KeyOf(cs[0]), cs[0])] + Pairs(cs[1..])
  }

  /** `.filter(Boolean)`: drops the absent entries. */
  function Present(vs: seq<Option<Category>>): (r: seq<Category>)
    ensures forall c :: c in r <==> Some(c) in vs
  {
    if vs == [] then []
    else (if vs[0].Some? then [vs[0].value] else []) + Present(vs[1..])
  }

  /** The ids of some categories. */
  function Ids(cs: seq<Category>): set<int> {
    set c | c in cs :: c.id
  }

  /** The ids of the categories that are present. */
  function PresentIds(cs: seq<Option<Category>>): set<int> {
    set i | 0 <= i < |cs| && cs[i].Some? :: cs[i].value.id
  }

  predicate DistinctIds(cs: seq<Category>) {
    forall i, j :: 0 <= i < j < |cs| ==> cs[i].id != cs[j].id
  }

  /** Entries whose key is the id of their own (present) value. */
  predicate KeyedByOwnId(es: seq<(Option<int>, Option<Category>)>) {
    forall i :: 0 <= i < |es| ==> es[i].0 == KeyOf(es[i].1)
  }

  lemma {:induction false} LastValueKeyed(pairs: seq<(Option<int>, Option<Category>)>, k: Option<int>)
    requires KeyedByOwnId(pairs)
    ensures LastValue(pairs, k).Some? ==> KeyOf(LastValue(pairs, k).value) == k
  {
    if pairs != [] && pairs[|pairs| - 1].0 != k {
      LastValueKeyed(pairs[..|pairs| - 1], k);
    }
  }

  lemma {:induction false} PresentDistinct(es: seq<(Option<int>, Option<Category>)>)
    requires KeyedByOwnId(es) && DistinctKeys(es)
    ensures DistinctIds(Present(Values(es)))
  {
    if es != [] {
      var vs := Values(es);
      assert Values(es[1..]) == vs[1..];
      PresentDistinct(es[1..]);
      var tail := Present(vs[1..]);
      if vs[0].Some? {
        forall j | 0 <= j < |tail|
          ensures tail[j].id != vs[0].value.id
        {
          var k :| 0 <= k < |vs[1..]| && vs[1..][k] == Some(tail[j]);
          assert es[k + 1].0 == Some(tail[j].id);
        }
      }
    }
  }

  /** A category among the values of the map was carried by some record, under its own id. */
  lemma EntryValueOrigin(cs: seq<Option<Category>>, c: Category)
    requires Some(c) in Values(FromPairs(Pairs(cs)))
    ensures Some(c) in cs
    ensures LastValue(Pairs(cs), Some(c.id)) == Some(Some(c))
  {
    var pairs := Pairs(cs);
    var es := FromPairs(pairs);
    var vs := Values(es);
    var i :| 0 <= i < |vs| && vs[i] == Some(c);
    var key := es[i].0;
    assert es[i].1 == Some(c);
    assert LastValue(pairs, key) == Some(Some(c));
    var j :| 0 <= j < |pairs| && pairs[j] == (key, Some(c));
    assert pairs[j] == (KeyOf(cs[j]), cs[j]);
    assert key == Some(c.id);
  }

  /** The entry of a loaded category's id holds a category with that id. */
  lemma EntryOfId(cs: seq<Option<Category>>, i: int) returns (v: Category)
    requires 0 <= i < |cs| && cs[i].Some?
    ensures v.id == cs[i].value.id
    ensures Some(v) in Values(FromPairs(Pairs(cs)))
  {
    var pairs := Pairs(cs);
    var es := FromPairs(pairs);
    var id := cs[i].value.id;
    assert pairs[i].0 == Some(id);
    assert Some(id) in KeysOf(pairs);
    assert Some(id) in KeysOf(es);
    var k :| 0 <= k < |es| && es[k].0 == Some(id);
    assert KeyedByOwnId(pairs);
    LastValueKeyed(pairs, Some(id));
    assert LastValue(pairs, Some(id)) == Some(es[k].1);
    v := es[k].1.value;
    assert Values(es)[k] == Some(v);
  }

  /** Every id of a loaded category is the id of some value of the map. */
  lemma IdsRepresented(cs: seq<Option<Category>>)
    ensures PresentIds(cs) <= Ids(Present(Values(FromPairs(Pairs(cs)))))
  {
    forall id | id in PresentIds(cs)
      ensures id in Ids(Present(Values(FromPairs(Pairs(cs)))))
    {
      var i :| 0 <= i < |cs| && cs[i].Some? && cs[i].value.id == id;
      var v := EntryOfId(cs, i);
      assert v in Present(Values(FromPairs(Pairs(cs))));
    }
  }

  /**
   * `[...new Map(xs.map(x => [x.category?.id, x.category])).values()].filter(Boolean)`:
   * one category per id, with no null among them, each the one carried by the
   * last record that has its id, and every id of a loaded category represented.
   */
  function Distinct(cs: seq<Option<Category>>): (r: seq<Category>)
    ensures DistinctIds(r)
    ensures forall c :: c in r ==> Some(c) in cs
    ensures forall c :: c in r ==> LastValue(Pairs(cs), Some(c.id)) == Some(Some(c))
    ensures Ids(r) == PresentIds(cs)
  {
    var es := FromPairs(Pairs(cs));
    var r := Present(Values(es));
    PresentDistinct(es);
    forall c | c in r
      ensures Some(c) in cs && LastValue(Pairs(cs), Some(c.id)) == Some(Some(c))
    {
      EntryValueOrigin(cs, c);
    }
    IdsRepresented(cs);
    r
  }

  /**
   * The order `a.name.localeCompare(b.name)` puts names in: `le(a, b)` stands
   * for `a.localeCompare(b) <= 0`. ECMA-402 leaves the collation to the
   * locale but requires it to be a consistent comparator, so the model asks
   * only that it be total and transitive.
   */
  ghost predicate IsCollation(le: (string, string) -> bool) {
    && (forall a, b :: le(a, b) || le(b, a))
    && (forall a, b, c :: le(a, b) && le(b, c) ==> le(a, c))
  }

  /** Code-point order on names, the model's stand-in for the locale's collation. */
  predicate CodePointLe(a: string, b: string) {
    LexLe(a, b)
  }

  /** Code-point order after lowering ASCII letters: a case-blind collation. */
  predicate CaseBlindLe(a: string, b: string) {
    LexLe(Lower(a), Lower(b))
  }

  /** Code-point order is a collation. */
  lemma CodePointIsCollation()
    ensures IsCollation(CodePointLe)
  {
    forall a: string, b: string
      ensures CodePointLe(a, b) || CodePointLe(b, a)
    {
      LexLeTotal(a, b);
    }
    forall a: string, b: string, c: string | CodePointLe(a, b) && CodePointLe(b, c)
      ensures CodePointLe(a, c)
    {
      LexLeTransitive(a, b, c);
    }
  }

  /** Ignoring ASCII case before comparing code points is a collation too. */
  lemma CaseBlindIsCollation()
    ensures IsCollation(CaseBlindLe)
  {
    forall a: string, b: string
      ensures CaseBlindLe(a, b) || CaseBlindLe(b, a)
    {
      LexLeTotal(Lower(a), Lower(b));
    }
    forall a: string, b: string, c: string | CaseBlindLe(a, b) && CaseBlindLe(b, c)
      ensures CaseBlindLe(a, c)
    {
      LexLeTransitive(Lower(a), Lower(b), Lower(c));
    }
  }

  /**
   * The drop-down order depends on the collation: code-point order puts
   * "Banana" before "apple", a case-blind one puts "apple" first.
   */
  lemma CollationDecidesMixedCase()
    ensures IsCollation(CodePointLe) && IsCollation(CaseBlindLe)
    ensures SortByName(CodePointLe, [Category(1, "apple"), Category(2, "Banana")])
      == [Category(2, "Banana"), Category(1, "apple")]
    ensures SortByName(CaseBlindLe, [Category(1, "apple"), Category(2, "Banana")])
      == [Category(1, "apple"), Category(2, "Banana")]
  {
    CodePointIsCollation();
    CaseBlindIsCollation();
    var apple, banana := Category(1, "apple"), Category(2, "Banana");
    assert [apple, banana][1..] == [banana];
    assert [banana][1..] == [];
    assert !CodePointLe("apple", "Banana") by {
      assert "apple"[0] > "Banana"[0];
    }
    assert CaseBlindLe("apple", "Banana") by {
      assert Lower("apple")[0] == 'a' && Lower("Banana")[0] == 'b';
    }
  }

  /** Names in ascending order under the collation `le`. */
  predicate SortedByName(le: (string, string) -> bool, cs: seq<Category>) {
    forall i, j :: 0 <= i < j < |cs| ==> le(cs[i].name, cs[j].name)
  }

  /** Inserts `c` before the first category whose name comes after its own. */
  function InsertByName(le: (string, string) -> bool, c: Category, cs: seq<Category>): (r: seq<Category>)
    requires IsCollation(le)
    requires SortedByName(le, cs)
    ensures SortedByName(le, r)
    ensures multiset(r) == multiset(cs) + multiset{c}
  {
    if cs == [] then [c]
    else if le(c.name, cs[0].name) then
      assert cs == [cs[0]] + cs[1..];
      [c] + cs
    else
      var rest := InsertByName(le, c, cs[1..]);
      assert cs == [cs[0]] + cs[1..];
      forall x | x in rest
        ensures le(cs[0].name, x.name)
      {
        assert x in multiset(rest);
        if x != c {
          assert x in multiset(cs[1..]);
        }
      }
      [cs[0]] + rest
  }

  /**
   * `.sort((a, b) => a.name.localeCompare(b.name))` (insertion sort here; it
   * orders the same way) for any collation the locale may use.
   */
  function SortByName(le: (string, string) -> bool, cs: seq<Category>): (r: seq<Category>)
    requires IsCollation(le)
    ensures SortedByName(le, r)
    ensures multiset(r) == multiset(cs)
  {
    if cs == [] then []
    else
      assert cs == [cs[0]] + cs[1..];
      InsertByName(le, cs[0], SortByName(le, cs[1..]))
  }

  lemma IdsCons(cs: seq<Category>)
    requires cs != []
    ensures Ids(cs) == {cs[0].id} + Ids(cs[1..])
  {
    assert cs == [cs[0]] + cs[1..];
    assert forall x :: x in cs <==> x == cs[0] || x in cs[1..];
  }

  /** A first id that recurs later breaks distinctness. */
  lemma RepeatedHead(cs: seq<Category>)
    requires cs != [] && cs[0].id in Ids(cs[1..])
    ensures !DistinctIds(cs)
  {
    var x :| x in cs[1..] && x.id == cs[0].id;
    var j :| 0 <= j < |cs[1..]| && cs[1..][j] == x;
    assert cs[j + 1].id == cs[0].id;
  }

  /** A first id that does not recur leaves distinctness to the rest. */
  lemma FreshHead(cs: seq<Category>)
    requires cs != [] && cs[0].id !in Ids(cs[1..])
    ensures DistinctIds(cs) <==> DistinctIds(cs[1..])
  {
    var tail := cs[1..];
    if DistinctIds(tail) {
      forall i, j | 0 <= i < j < |cs|
        ensures cs[i].id != cs[j].id
      {
        if i == 0 {
          assert cs[j] == tail[j - 1];
        } else {
          assert cs[i] == tail[i - 1] && cs[j] == tail[j - 1];
        }
      }
    } else {
      var i, j :| 0 <= i < j < |tail| && tail[i].id == tail[j].id;
      assert cs[i + 1].id == cs[j + 1].id;
    }
  }

  /** Ids are pairwise distinct exactly when there are as many ids as categories. */
  lemma {:induction false} DistinctIdsIffCount(cs: seq<Category>)
    ensures DistinctIds(cs) <==> |Ids(cs)| == |cs|
    ensures |Ids(cs)| <= |cs|
  {
    if cs == [] {
      assert Ids(cs) == {};
    } else {
      var tail := cs[1..];
      DistinctIdsIffCount(tail);
      IdsCons(cs);
      if cs[0].id in Ids(tail) {
        RepeatedHead(cs);
        assert Ids(cs) == Ids(tail);
      } else {
        FreshHead(cs);
        assert |Ids(cs)| == 1 + |Ids(tail)|;
      }
    }
  }

  /** Reordering keeps the ids distinct. */
  lemma PermutationKeepsIdsDistinct(a: seq<Category>, b: seq<Category>)
    requires multiset(a) == multiset(b) && DistinctIds(a)
    ensures DistinctIds(b) && Ids(b) == Ids(a)
  {
    assert |a| == |multiset(a)| == |multiset(b)| == |b|;
    forall x
      ensures x in a <==> x in b
    {
      assert x in a <==> x in multiset(a);
      assert x in b <==> x in multiset(b);
    }
    assert Ids(b) == Ids(a);
    DistinctIdsIffCount(a);
    DistinctIdsIffCount(b);
  }
}

=== FILE: dashboard.dfy ===
/**
 * `DashboardPage`: the date window, the fold of `loadDashboard` into per-event
 * rows, grand totals and per-category / per-source totals, the rows of the
 * category export, and the expand toggles of the category lists.
 */
module Dashboard {
  import opened Wrappers
  import opened Records
  import opened Seqs
  import opened MoneyMaps

  /** The start and end date inputs; an empty one leaves that side open. */
  datatype Window = Window(start: string, end: string)

  /**
   * `inRange`. `time` stands for `new Date(s).getTime()`: `None` when the text
   * is not a date (`NaN`, which fails every comparison).
   */
  predicate InRange(time: string -> Option<int>, w: Window, d: string) {
    && time(d).Some?
    && (w.start == "" || (time(w.start).Some? && time(w.start).value <= time(d).value))
    && (w.end == "" || (time(w.end).Some? && time(d).value <= time(w.end).value))
  }

  /** What the window admits, side by side. */
  lemma InRangeSpec(time: string -> Option<int>, w: Window, d: string)
    ensures w.start == "" && w.end == "" ==> (InRange(time, w, d) <==> time(d).Some?)
    ensures w.start != "" && time(w.start).None? ==> !InRange(time, w, d)
    ensures w.end != "" && time(w.end).None? ==> !InRange(time, w, d)
    ensures w.start == "" && w.end != "" && time(w.end).Some? ==>
      (InRange(time, w, d) <==> time(d).Some? && time(d).value <= time(w.end).value)
    ensures w.start != "" && time(w.start).Some? && w.end == "" ==>
      (InRange(time, w, d) <==> time(d).Some? && time(w.start).value <= time(d).value)
    ensures time(d).Some? && time(d) == time(w.start) && time(d) == time(w.end) ==> InRange(time, w, d)
  {
  }

  /** `s || fallback`: an absent or empty text gives way to the fallback. */
  function OrElse(s: Option<string>, fallback: string): (r: string)
    ensures fallback != "" ==> r != ""
    ensures s.Some? && s.value != "" ==> r == s.value
    ensures s.None? || s.value == "" ==> r == fallback
  {
    if s.Some? && s.value != "" then s.value else fallback
  }

  /** `x.category?.name`. */
  function CategoryName(c: Option<Category>): Option<string> {
    if c.Some? then Some(c.value.name) else None
  }

  /** The key under which a record is totalled, and the amount it adds. */
  datatype Keying<-T> = Keying(category: T -> string, source: T -> string, amount: T -> real)

  const IncomeKeying: Keying<Income> := Keying(
    (i: Income) => OrElse(CategoryName(i.category), "Uncategorized"),
    (i: Income) => OrElse(i.sourceName, "Unnamed Source"),
    IncomeAmount)

  const ExpenseKeying: Keying<Expense> := Keying(
    (e: Expense) => OrElse(CategoryName(e.category), "Uncategorized"),
    (e: Expense) => OrElse(e.description, "Unnamed Expense"),
    ExpenseAmount)

  /** A category map (`incomeCategoryMap`) and its nested source map (`incomeSourcesMap`). */
  datatype Breakdown = Breakdown(byCategory: map<string, real>, bySource: map<string, map<string, real>>)

  const EmptyBreakdown := Breakdown(map[], map[])

  /** Every category has sub-totals, and they add up to the category's total. */
  ghost predicate Consistent(b: Breakdown) {
    && b.byCategory.Keys == b.bySource.Keys
    && forall c :: c in b.byCategory ==> SumValues(b.bySource[c]) == b.byCategory[c]
  }

  lemma EmptyConsistent()
    ensures Consistent(EmptyBreakdown)
    ensures SumValues(EmptyBreakdown.byCategory) == 0.0
  {
    SumValuesEmpty();
  }

  /** The sub-totals of one category so far (`{}` when it has none). */
  function Sources(b: Breakdown, c: string): map<string, real> {
    if c in b.bySource then b.bySource[c] else map[]
  }

  /** The body of the `reduce` callback: one record's amount added under its category and its source. */
  function Post(b: Breakdown, cat: string, src: string, amount: real): (r: Breakdown)
    ensures Consistent(b) ==> Consistent(r)
    ensures SumValues(r.byCategory) == SumValues(b.byCategory) + amount
    ensures Lookup(r.byCategory, cat) == Lookup(b.byCategory, cat) + amount
    ensures forall c :: c != cat ==> Lookup(r.byCategory, c) == Lookup(b.byCategory, c)
    ensures Lookup(Sources(r, cat), src) == Lookup(Sources(b, cat), src) + amount
    ensures forall c, s :: c != cat || s != src ==> Lookup(Sources(r, c), s) == Lookup(Sources(b, c), s)
    ensures r.byCategory.Keys == b.byCategory.Keys + {cat}
    ensures Sources(r, cat).Keys == Sources(b, cat).Keys + {src}
    ensures forall c :: c != cat ==> Sources(r, c) == Sources(b, c)
  {
    var r := Breakdown(AddTo(b.byCategory, cat, amount), b.bySource[cat := AddTo(Sources(b, cat), src, amount)]);
    SumValuesAddTo(b.byCategory, cat, amount);
    SumValuesAddTo(Sources(b, cat), src, amount);
    SumValuesEmpty();
    r
  }

  /** The sum of the amounts of the records of `xs` totalled under category `c`. */
  function SumWhere<T>(xs: seq<T>, k: Keying<T>, c: string): real {
    if xs == [] then 0.0
    else (if k.category(xs[0]) == c then k.amount(xs[0]) else 0.0) + SumWhere(xs[1..], k, c)
  }

  /** The sum of the amounts of the records of `xs` totalled under category `c` and source `s`. */
  function SumWhereSource<T>(xs: seq<T>, k: Keying<T>, c: string, s: string): real {
    if xs == [] then 0.0
    else
      var here := if k.category(xs[0]) == c && k.source(xs[0]) == s then k.amount(xs[0]) else 0.0;
      here + SumWhereSource(xs[1..], k, c, s)
  }

  /** The categories the records of `xs` are totalled under. */
  function FiledUnder<T>(xs: seq<T>, k: Keying<T>): set<string> {
    if xs == [] then {} else {k.category(xs[0])} + FiledUnder(xs[1..], k)
  }

  /** The source names the records of `xs` filed under category `c` are totalled under. */
  function SourcesFiledUnder<T>(xs: seq<T>, k: Keying<T>, c: string): set<string> {
    if xs == [] then {}
    else (if k.category(xs[0]) == c then {k.source(xs[0])} else {}) + SourcesFiledUnder(xs[1..], k, c)
  }

  /**
   * The whole `reduce` over one event's records, as far as the maps go: each
   * category total and each (category, source) sub-total grows by the amounts
   * of exactly the records keyed to it.
   */
  function PostAll<T>(b: Breakdown, xs: seq<T>, k: Keying<T>): (r: Breakdown)
    ensures Consistent(b) ==> Consistent(r)
    ensures SumValues(r.byCategory) == SumValues(b.byCategory) + Sum(xs, k.amount)
    ensures forall c :: Lookup(r.byCategory, c) == Lookup(b.byCategory, c) + SumWhere(xs, k, c)
    ensures forall c, s :: Lookup(Sources(r, c), s) == Lookup(Sources(b, c), s) + SumWhereSource(xs, k, c, s)
    ensures r.byCategory.Keys == b.byCategory.Keys + FiledUnder(xs, k)
    decreases |xs|
  {
    if xs == [] then b
    else PostAll(Post(b, k.category(xs[0]), k.source(xs[0]), k.amount(xs[0])), xs[1..], k)
  }

  /**
   * The source names listed under a category (`Object.entries(incomeSources[cat])`)
   * grow by exactly the sources of the records filed under it.
   */
  lemma {:induction false} PostAllSourceKeys<T>(b: Breakdown, xs: seq<T>, k: Keying<T>, c: string)
    ensures Sources(PostAll(b, xs, k), c).Keys == Sources(b, c).Keys + SourcesFiledUnder(xs, k, c)
    decreases |xs|
  {
    if xs != [] {
      var b1 := Post(b, k.category(xs[0]), k.source(xs[0]), k.amount(xs[0]));
      PostAllSourceKeys(b1, xs[1..], k, c);
    }
  }

  /** Posting `xs + ys` is posting `xs`, then `ys`. */
  lemma {:induction false} PostAllAppend<T>(b: Breakdown, xs: seq<T>, ys: seq<T>, k: Keying<T>)
    ensures PostAll(b, xs + ys, k) == PostAll(PostAll(b, xs, k), ys, k)
    decreases |xs|
  {
    if xs == [] {
      assert xs + ys == ys;
    } else {
      assert (xs + ys)[0] == xs[0];
      assert (xs + ys)[1..] == xs[1..] + ys;
      PostAllAppend(Post(b, k.category(xs[0]), k.source(xs[0]), k.amount(xs[0])), xs[1..], ys, k);
    }
  }

  /** The result of fetching one event's incomes and expenses; a failed fetch throws before any map is touched. */
  datatype FetchOutcome = Failed | Fetched(incomes: seq<Income>, expenses: seq<Expense>)

  datatype EventFetch = EventFetch(event: Event, outcome: FetchOutcome)

  /** `{ ...event, totalIncome, totalExpense, balance }`. */
  datatype EventRow = EventRow(event: Event, totalIncome: real, totalExpense: real, balance: real)

  datatype Totals = Totals(income: real, expense: real, balance: real)

  /** The state `loadDashboard` sets. */
  datatype DashboardState = DashboardState(
    rows: seq<EventRow>,
    totals: Totals,
    incomes: Breakdown,
    expenses: Breakdown)

  const InitialState := DashboardState([], Totals(0.0, 0.0, 0.0), EmptyBreakdown, EmptyBreakdown)

  function InRangeIncomes(time: string -> Option<int>, w: Window, xs: seq<Income>): seq<Income> {
    Filter(xs, (i: Income) => InRange(time, w, i.date))
  }

  function InRangeExpenses(time: string -> Option<int>, w: Window, xs: seq<Expense>): seq<Expense> {
    Filter(xs, (e: Expense) => InRange(time, w, e.date))
  }

  /** What the row of one event should read: the sums of its records inside the window, or zeros. */
  function RowOf(time: string -> Option<int>, w: Window, f: EventFetch): EventRow {
    match f.outcome
    case Failed => EventRow(f.event, 0.0, 0.0, 0.0)
    case Fetched(incs, exps) =>
      var ti := Sum(InRangeIncomes(time, w, incs), IncomeAmount);
      var te := Sum(InRangeExpenses(time, w, exps), ExpenseAmount);
      EventRow(f.event, ti, te, ti - te)
  }

  function Rows(time: string -> Option<int>, w: Window, fs: seq<EventFetch>): (r: seq<EventRow>)
    ensures |r| == |fs|
  {
    if fs == [] then [] else [RowOf(time, w, fs[0])] + Rows(time, w, fs[1..])
  }

  /** Row `k` belongs to event `k`. */
  lemma {:induction false} RowsAt(time: string -> Option<int>, w: Window, fs: seq<EventFetch>, k: nat)
    requires k < |fs|
    ensures Rows(time, w, fs)[k] == RowOf(time, w, fs[k])
  {
    if k > 0 {
      RowsAt(time, w, fs[1..], k - 1);
    }
  }

  function RowIncome(r: EventRow): real { r.totalIncome }
  function RowExpense(r: EventRow): real { r.totalExpense }

  /** The running state of the fold: rows so far, `incomeSum`, `expenseSum` and the four maps. */
  datatype Acc = Acc(rows: seq<EventRow>, incomeSum: real, expenseSum: real, incomes: Breakdown, expenses: Breakdown)

  /** What a breakdown adds to the grand total that it does not account for (0 when they agree). */
  ghost function Drift(b: Breakdown, sum: real): real {
    SumValues(b.byCategory) - sum
  }

  /** One event of `events.map(async (event) => ...)`. */
  function Visit(a: Acc, time: string -> Option<int>, w: Window, f: EventFetch): (r: Acc)
    ensures r.rows == a.rows + [RowOf(time, w, f)]
    ensures r.incomeSum == a.incomeSum + RowIncome(RowOf(time, w, f))
    ensures r.expenseSum == a.expenseSum + RowExpense(RowOf(time, w, f))
    ensures f.outcome.Failed? ==> r.incomes == a.incomes && r.expenses == a.expenses
  {
    match f.outcome
    case Failed => a.(rows := a.rows + [EventRow(f.event, 0.0, 0.0, 0.0)])
    case Fetched(incs, exps) =>
      var fi := InRangeIncomes(time, w, incs);
      var fe := InRangeExpenses(time, w, exps);
      var ti := SumFrom(0.0, fi, IncomeAmount);
      var te := SumFrom(0.0, fe, ExpenseAmount);
      assert EventRow(f.event, ti, te, ti - te) == RowOf(time, w, f);
      Acc(a.rows + [EventRow(f.event, ti, te, ti - te)], a.incomeSum + ti, a.expenseSum + te,
        PostAll(a.incomes, fi, IncomeKeying), PostAll(a.expenses, fe, ExpenseKeying))
  }

  /** One event keeps the category maps consistent and in step with the grand totals. */
  lemma VisitKeepsBooks(a: Acc, time: string -> Option<int>, w: Window, f: EventFetch)
    ensures var r := Visit(a, time, w, f);
      && (Consistent(a.incomes) ==> Consistent(r.incomes))
      && (Consistent(a.expenses) ==> Consistent(r.expenses))
      && Drift(r.incomes, r.incomeSum) == Drift(a.incomes, a.incomeSum)
      && Drift(r.expenses, r.expenseSum) == Drift(a.expenses, a.expenseSum)
  {
    match f.outcome
    case Failed =>
    case Fetched(incs, exps) =>
      var fi := InRangeIncomes(time, w, incs);
      var fe := InRangeExpenses(time, w, exps);
      var pi := PostAll(a.incomes, fi, IncomeKeying);
      var pe := PostAll(a.expenses, fe, ExpenseKeying);
      assert SumValues(pi.byCategory) == SumValues(a.incomes.byCategory) + Sum(fi, IncomeAmount);
      assert SumValues(pe.byCategory) == SumValues(a.expenses.byCategory) + Sum(fe, ExpenseAmount);
  }

  /** The events in order (`Promise.all` taken one event at a time). */
  function VisitAll(a: Acc, time: string -> Option<int>, w: Window, fs: seq<EventFetch>): (r: Acc)
    ensures r.rows == a.rows + Rows(time, w, fs)
    decreases |fs|
  {
    if fs == [] then a
    else
      var v := Visit(a, time, w, fs[0]);
      var r := VisitAll(v, time, w, fs[1..]);
      var row := RowOf(time, w, fs[0]);
      var rest := Rows(time, w, fs[1..]);
      assert Rows(time, w, fs) == [row] + rest;
      assert r.rows == (a.rows + [row]) + rest;
      assert (a.rows + [row]) + rest == a.rows + ([row] + rest);
      r
  }

  /** The records of one event that reach the maps: those inside the window, none on a failed fetch. */
  function PostedIncomes(time: string -> Option<int>, w: Window, f: EventFetch): seq<Income> {
    if f.outcome.Failed? then [] else InRangeIncomes(time, w, f.outcome.incomes)
  }

  function PostedExpenses(time: string -> Option<int>, w: Window, f: EventFetch): seq<Expense> {
    if f.outcome.Failed? then [] else InRangeExpenses(time, w, f.outcome.expenses)
  }

  /** The posted records of all the events, event after event. */
  function AllIncomes(time: string -> Option<int>, w: Window, fs: seq<EventFetch>): seq<Income> {
    if fs == [] then [] else PostedIncomes(time, w, fs[0]) + AllIncomes(time, w, fs[1..])
  }

  function AllExpenses(time: string -> Option<int>, w: Window, fs: seq<EventFetch>): seq<Expense> {
    if fs == [] then [] else PostedExpenses(time, w, fs[0]) + AllExpenses(time, w, fs[1..])
  }

  /** The fold's maps are the posting of every event's in-window records, in event order. */
  lemma {:induction false} VisitAllPostsAll(a: Acc, time: string -> Option<int>, w: Window, fs: seq<EventFetch>)
    ensures VisitAll(a, time, w, fs).incomes == PostAll(a.incomes, AllIncomes(time, w, fs), IncomeKeying)
    ensures VisitAll(a, time, w, fs).expenses == PostAll(a.expenses, AllExpenses(time, w, fs), ExpenseKeying)
    decreases |fs|
  {
    if fs != [] {
      var v := Visit(a, time, w, fs[0]);
      VisitAllPostsAll(v, time, w, fs[1..]);
      assert v.incomes == PostAll(a.incomes, PostedIncomes(time, w, fs[0]), IncomeKeying);
      assert v.expenses == PostAll(a.expenses, PostedExpenses(time, w, fs[0]), ExpenseKeying);
      PostAllAppend(a.incomes, PostedIncomes(time, w, fs[0]), AllIncomes(time, w, fs[1..]), IncomeKeying);
      PostAllAppend(a.expenses, PostedExpenses(time, w, fs[0]), AllExpenses(time, w, fs[1..]), ExpenseKeying);
    }
  }

  /** The running `incomeSum` and `expenseSum` are the sums of the rows' totals. */
  lemma {:induction false} VisitAllSums(a: Acc, time: string -> Option<int>, w: Window, fs: seq<EventFetch>)
    ensures VisitAll(a, time, w, fs).incomeSum == a.incomeSum + Sum(Rows(time, w, fs), RowIncome)
    ensures VisitAll(a, time, w, fs).expenseSum == a.expenseSum + Sum(Rows(time, w, fs), RowExpense)
    decreases |fs|
  {
    if fs != [] {
      VisitAllSums(Visit(a, time, w, fs[0]), time, w, fs[1..]);
      var rows := Rows(time, w, fs);
      assert rows[1..] == Rows(time, w, fs[1..]);
    }
  }

  /** The fold keeps the category maps consistent and in step with the grand totals. */
  lemma {:induction false} VisitAllKeepsBooks(a: Acc, time: string -> Option<int>, w: Window, fs: seq<EventFetch>)
    ensures var r := VisitAll(a, time, w, fs);
      && (Consistent(a.incomes) ==> Consistent(r.incomes))
      && (Consistent(a.expenses) ==> Consistent(r.expenses))
      && Drift(r.incomes, r.incomeSum) == Drift(a.incomes, a.incomeSum)
      && Drift(r.expenses, r.expenseSum) == Drift(a.expenses, a.expenseSum)
    decreases |fs|
  {
    if fs != [] {
      VisitKeepsBooks(a, time, w, fs[0]);
      VisitAllKeepsBooks(Visit(a, time, w, fs[0]), time, w, fs[1..]);
    }
  }

  /**
   * `loadDashboard`: `None` when the event list itself cannot be fetched, which
   * leaves the state as it was.
   */
  function LoadDashboard(prev: DashboardState, time: string -> Option<int>, w: Window, events: Option<seq<EventFetch>>): (r: DashboardState)
    ensures events.None? ==> r == prev
    ensures events.Some? ==> r.rows == Rows(time, w, events.value)
    ensures events.Some? ==> r.totals.income == Sum(r.rows, RowIncome)
    ensures events.Some? ==> r.totals.expense == Sum(r.rows, RowExpense)
    ensures events.Some? ==> r.totals.balance == r.totals.income - r.totals.expense
    ensures events.Some? ==> Consistent(r.incomes) && Consistent(r.expenses)
    ensures events.Some? ==> SumValues(r.incomes.byCategory) == r.totals.income
    ensures events.Some? ==> SumValues(r.expenses.byCategory) == r.totals.expense
    ensures events.Some? ==> var incs := AllIncomes(time, w, events.value);
      && r.incomes.byCategory.Keys == FiledUnder(incs, IncomeKeying)
      && (forall c :: Lookup(r.incomes.byCategory, c) == SumWhere(incs, IncomeKeying, c))
      && (forall c, s :: Lookup(Sources(r.incomes, c), s) == SumWhereSource(incs, IncomeKeying, c, s))
    ensures events.Some? ==> var exps := AllExpenses(time, w, events.value);
      && r.expenses.byCategory.Keys == FiledUnder(exps, ExpenseKeying)
      && (forall c :: Lookup(r.expenses.byCategory, c) == SumWhere(exps, ExpenseKeying, c))
      && (forall c, s :: Lookup(Sources(r.expenses, c), s) == SumWhereSource(exps, ExpenseKeying, c, s))
  {
    match events
    case None => prev
    case Some(fs) =>
      var a0 := Acc([], 0.0, 0.0, EmptyBreakdown, EmptyBreakdown);
      EmptyConsistent();
      VisitAllKeepsBooks(a0, time, w, fs);
      VisitAllSums(a0, time, w, fs);
      VisitAllPostsAll(a0, time, w, fs);
      var a := VisitAll(a0, time, w, fs);
      DashboardState(a.rows, Totals(a.incomeSum, a.expenseSum, a.incomeSum - a.expenseSum), a.incomes, a.expenses)
  }

  /**
   * After a load, the source names listed under each category are exactly
   * those of the posted records filed under it.
   */
  lemma LoadDashboardSourceNames(prev: DashboardState, time: string -> Option<int>, w: Window, fs: seq<EventFetch>, c: string)
    ensures var r := LoadDashboard(prev, time, w, Some(fs));
      && Sources(r.incomes, c).Keys == SourcesFiledUnder(AllIncomes(time, w, fs), IncomeKeying, c)
      && Sources(r.expenses, c).Keys == SourcesFiledUnder(AllExpenses(time, w, fs), ExpenseKeying, c)
  {
    var a0 := Acc([], 0.0, 0.0, EmptyBreakdown, EmptyBreakdown);
    VisitAllPostsAll(a0, time, w, fs);
    PostAllSourceKeys(EmptyBreakdown, AllIncomes(time, w, fs), IncomeKeying, c);
    PostAllSourceKeys(EmptyBreakdown, AllExpenses(time, w, fs), ExpenseKeying, c);
  }

  /** Events whose fetch fails add rows of zeros and touch neither the sums nor the maps. */
  lemma {:induction false} FailedEventsAddNothing(a: Acc, time: string -> Option<int>, w: Window, fs: seq<EventFetch>)
    requires forall k :: 0 <= k < |fs| ==> fs[k].outcome.Failed?
    ensures var r := VisitAll(a, time, w, fs);
      && r.incomeSum == a.incomeSum && r.expenseSum == a.expenseSum
      && r.incomes == a.incomes && r.expenses == a.expenses
      && forall k :: |a.rows| <= k < |r.rows| ==> r.rows[k].totalIncome == 0.0 && r.rows[k].totalExpense == 0.0 && r.rows[k].balance == 0.0
    decreases |fs|
  {
    VisitAllSums(a, time, w, fs);
    if fs != [] {
      var v := Visit(a, time, w, fs[0]);
      FailedEventsAddNothing(v, time, w, fs[1..]);
      var r := VisitAll(a, time, w, fs);
      forall k | |a.rows| <= k < |r.rows|
        ensures r.rows[k].totalIncome == 0.0 && r.rows[k].totalExpense == 0.0 && r.rows[k].balance == 0.0
      {
        RowsAt(time, w, fs, k - |a.rows|);
      }
    }
  }

  /** When every event's fetch fails, the dashboard reads zero everywhere and its maps are empty. */
  lemma AllFailedLoadsZeros(prev: DashboardState, time: string -> Option<int>, w: Window, fs: seq<EventFetch>)
    requires forall k :: 0 <= k < |fs| ==> fs[k].outcome.Failed?
    ensures var r := LoadDashboard(prev, time, w, Some(fs));
      && r.totals == Totals(0.0, 0.0, 0.0)
      && r.incomes == EmptyBreakdown && r.expenses == EmptyBreakdown
      && |r.rows| == |fs|
      && forall k :: 0 <= k < |fs| ==> r.rows[k] == EventRow(fs[k].event, 0.0, 0.0, 0.0)
  {
    FailedEventsAddNothing(Acc([], 0.0, 0.0, EmptyBreakdown, EmptyBreakdown), time, w, fs);
    forall k | 0 <= k < |fs|
      ensures LoadDashboard(prev, time, w, Some(fs)).rows[k] == EventRow(fs[k].event, 0.0, 0.0, 0.0)
    {
      RowsAt(time, w, fs, k);
    }
  }

  /** One line of the category export: the category, its income total and its expense total. */
  datatype CategoryRow = CategoryRow(category: string, income: real, expense: real)

  /** A row shows its category's income and expense totals, 0 for a side with none. */
  predicate ReadsTotals(row: CategoryRow, incomes: map<string, real>, expenses: map<string, real>) {
    row.income == Lookup(incomes, row.category) && row.expense == Lookup(expenses, row.category)
  }

  const ExportHeader: seq<string> := ["Category", "Income (RWF)", "Expense (RWF)"]

  /** The keys of `Array.from(new Set([...]))`, each once, in some order. */
  method KeysOnce(keys: set<string>) returns (ks: seq<string>)
    ensures |ks| == |keys|
    ensures forall i :: 0 <= i < |ks| ==> ks[i] in keys
    ensures forall c :: c in keys ==> c in ks
    ensures forall i, j :: 0 <= i < j < |ks| ==> ks[i] != ks[j]
  {
    ks := [];
    var left := keys;
    ghost var done: set<string> := {};
    while left != {}
      invariant left + done == keys
      invariant left !! done
      invariant |ks| == |done|
      invariant forall i :: 0 <= i < |ks| ==> ks[i] in done
      invariant forall c :: c in done ==> c in ks
      invariant forall i, j :: 0 <= i < j < |ks| ==> ks[i] != ks[j]
      decreases left
    {
      var c :| c in left;
      ks := ks + [c];
      left := left - {c};
      done := done + {c};
    }
  }

  /**
   * The rows `handleExport` writes: the header, then one row per category
   * that has an income or an expense total, a missing side reading 0.
   */
  method ExportRows(incomes: map<string, real>, expenses: map<string, real>) returns (header: seq<string>, rows: seq<CategoryRow>)
    ensures header == ExportHeader
    ensures |rows| == |incomes.Keys + expenses.Keys|
    ensures forall i :: 0 <= i < |rows| ==> rows[i].category in incomes || rows[i].category in expenses
    ensures forall c :: c in incomes || c in expenses ==> exists i :: 0 <= i < |rows| && rows[i].category == c
    ensures forall i, j :: 0 <= i < j < |rows| ==> rows[i].category != rows[j].category
    ensures forall i :: 0 <= i < |rows| ==> ReadsTotals(rows[i], incomes, expenses)
  {
    header := ExportHeader;
    var ks := KeysOnce(incomes.Keys + expenses.Keys);
    rows := RowsFor(ks, incomes, expenses);
    forall c | c in incomes || c in expenses
      ensures exists i :: 0 <= i < |rows| && rows[i].category == c
    {
      var i :| 0 <= i < |ks| && ks[i] == c;
      assert rows[i].category == c;
    }
  }

  /** One row per category of `ks`, in that order. */
  function RowsFor(ks: seq<string>, incomes: map<string, real>, expenses: map<string, real>): (rows: seq<CategoryRow>)
    ensures |rows| == |ks|
    ensures forall i :: 0 <= i < |rows| ==> rows[i].category == ks[i] && ReadsTotals(rows[i], incomes, expenses)
  {
    seq(|ks|, i requires 0 <= i < |ks| => CategoryRow(ks[i], Lookup(incomes, ks[i]), Lookup(expenses, ks[i])))
  }

  /** Whether a category's list of sources is open; a category never toggled is closed. */
  predicate Expanded(flags: map<string, bool>, c: string) {
    c in flags && flags[c]
  }

  /** `toggleIncomeCategory` / `toggleExpenseCategory`: `{ ...prev, [cat]: !prev[cat] }`. */
  function Toggle(flags: map<string, bool>, c: string): (r: map<string, bool>)
    ensures r.Keys == flags.Keys + {c}
    ensures Expanded(r, c) == !Expanded(flags, c)
    ensures forall d :: d in flags && d != c ==> r[d] == flags[d]
  {
    flags[c := !Expanded(flags, c)]
  }

  /**
   * `!!flags[c]` on the plain object as written: a name never toggled reads
   * through to `Object.prototype`, where each inherited name holds a truthy member.
   */
  predicate ExpandedAsWritten(flags: map<string, bool>, c: string) {
    if c in flags then flags[c] else c in InheritedNames
  }

  /** `{ ...prev, [cat]: !prev[cat] }` as written, reading through the prototype. */
  function ToggleAsWritten(flags: map<string, bool>, c: string): map<string, bool> {
    flags[c := !ExpandedAsWritten(flags, c)]
  }

  /**
   * As written, a category named like an inherited member (`constructor`,
   * `toString`, ...) shows open before it is ever toggled, and its first toggle
   * closes it; `Toggle` keeps it closed until toggled.
   */
  lemma InheritedNameStartsOpen(flags: map<string, bool>, c: string)
    requires c in InheritedNames && c !in flags
    ensures ExpandedAsWritten(flags, c) && !ExpandedAsWritten(ToggleAsWritten(flags, c), c)
    ensures !Expanded(flags, c) && Expanded(Toggle(flags, c), c)
  {
  }

  /** On every other name the code as written and `Toggle` show the same flags. */
  lemma {:induction false} ToggleAgreesOnOwnNames(flags: map<string, bool>, c: string, d: string)
    requires d !in InheritedNames
    ensures ExpandedAsWritten(ToggleAsWritten(flags, c), d) == Expanded(Toggle(flags, c), d)
  {
  }

  /** Toggling a category twice leaves every category as open as it was. */
  lemma ToggleTwice(flags: map<string, bool>, c: string, d: string)
    ensures Expanded(Toggle(Toggle(flags, c), c), d) == Expanded(flags, d)
  {
  }
}

=== FILE: entities.dfy ===
/**
 * The JPA entities the Spring services keep, and the category resolution
 * both transaction services perform. A repository is a map from id to
 * entity; Java `null`s are `None`.
 */
module Entities {
  import opened Wrappers

  /** An income or expense category as submitted or stored: `{ id, name }`. */
  datatype CategoryEntity = CategoryEntity(id: Option<int>, name: Option<string>)

  /** `Income`: the event is held by its id. */
  datatype IncomeEntity = IncomeEntity(
    id: Option<int>,
    sourceName: Option<string>,
    amount: Option<real>,
    date: Option<string>,
    description: Option<string>,
    eventId: Option<int>,
    category: Option<CategoryEntity>)

  /** `Expense`: the fields `ExpenseService` reads and writes. */
  datatype ExpenseEntity = ExpenseEntity(
    id: Option<int>,
    amount: Option<real>,
    date: Option<string>,
    description: Option<string>,
    eventId: Option<int>,
    category: Option<CategoryEntity>)

  /** `Event`: the income and expense lists are held by the ids of their members. */
  datatype EventEntity = EventEntity(
    id: Option<int>,
    name: Option<string>,
    date: Option<string>,
    location: Option<string>,
    description: Option<string>,
    incomeIds: seq<int>,
    expenseIds: seq<int>)

  /** The submitted category names a category the repository holds. */
  predicate NamesStored(submitted: Option<CategoryEntity>, categories: map<int, CategoryEntity>) {
    submitted.Some? && submitted.value.id.Some? && submitted.value.id.value in categories
  }

  /**
   * `if (c != null && c.getId() != null) categoryRepository.findById(c.getId()).ifPresent(x::setCategory)`:
   * a submitted category that names a stored one is replaced by it; otherwise
   * the record keeps the category it had.
   */
  function ResolveCategory(current: Option<CategoryEntity>, submitted: Option<CategoryEntity>, categories: map<int, CategoryEntity>): (r: Option<CategoryEntity>)
    ensures NamesStored(submitted, categories) ==> r == Some(categories[submitted.value.id.value])
    ensures !NamesStored(submitted, categories) ==> r == current
  {
    if NamesStored(submitted, categories) then Some(categories[submitted.value.id.value]) else current
  }

  /** Resolving the same submission again changes nothing. */
  lemma ResolveIdempotent(current: Option<CategoryEntity>, submitted: Option<CategoryEntity>, categories: map<int, CategoryEntity>)
    ensures ResolveCategory(ResolveCategory(current, submitted, categories), submitted, categories)
      == ResolveCategory(current, submitted, categories)
  {
  }

  /** Every entity is stored under its own id. */
  predicate WellKeyed<T>(store: map<int, T>, idOf: T -> Option<int>) {
    forall k :: k in store ==> idOf(store[k]) == Some(k)
  }
}

=== FILE: event_service.dfy ===
/** `EventService` over a map from id to event. */
module EventService {
  import opened Wrappers
  import opened Entities

  function IdOf(e: EventEntity): Option<int> { e.id }

  /** `getEventById`. */
  function GetById(store: map<int, EventEntity>, id: int): (r: Option<EventEntity>)
    ensures r.Some? <==> id in store
    ensures r.Some? ==> r.value == store[id]
  {
    if id in store then Some(store[id]) else None
  }

  /** `createEvent`: the event is saved as given, under the id the database generates. */
  function Create(store: map<int, EventEntity>, event: EventEntity, newId: int): (r: (map<int, EventEntity>, EventEntity))
    requires newId !in store
    ensures r.1 == event.(id := Some(newId))
    ensures r.0.Keys == store.Keys + {newId} && r.0[newId] == r.1
    ensures forall k :: k in store ==> r.0[k] == store[k]
    ensures WellKeyed(store, IdOf) ==> WellKeyed(r.0, IdOf)
  {
    var saved := event.(id := Some(newId));
    (store[newId := saved], saved)
  }

  /**
   * `updateEvent`: `None` (Java `null`) for an unknown id, the store untouched.
   * Otherwise name, date, location and description are copied; the id and the
   * income and expense lists stay.
   */
  function Update(store: map<int, EventEntity>, id: int, updated: EventEntity): (r: (map<int, EventEntity>, Option<EventEntity>))
    ensures id !in store ==> r.0 == store && r.1 == None
    ensures id in store ==> r.1.Some? && r.0 == store[id := r.1.value]
    ensures id in store ==> var before := store[id]; var x := r.1.value;
      && x.id == before.id && x.incomeIds == before.incomeIds && x.expenseIds == before.expenseIds
      && x.name == updated.name && x.date == updated.date
      && x.location == updated.location && x.description == updated.description
  {
    if id !in store then (store, None)
    else
      var before := store[id];
      var x := before.(name := updated.name, date := updated.date, location := updated.location, description := updated.description);
      (store[id := x], Some(x))
  }

  /** `deleteEvent`: only that id goes from the event store. */
  function Delete(store: map<int, EventEntity>, id: int): (r: map<int, EventEntity>)
    ensures r.Keys == store.Keys - {id}
    ensures forall k :: k in r ==> r[k] == store[k]
  {
    store - {id}
  }

  /** What `getEventById` sees after each operation. */
  lemma GetAfterOperations(store: map<int, EventEntity>, event: EventEntity, newId: int, id: int, updated: EventEntity, other: int)
    requires newId !in store && other != id
    ensures GetById(Create(store, event, newId).0, newId) == Some(event.(id := Some(newId)))
    ensures GetById(Update(store, id, updated).0, id) == Update(store, id, updated).1
    ensures GetById(Update(store, id, updated).0, other) == GetById(store, other)
    ensures GetById(Delete(store, id), id) == None
    ensures GetById(Delete(store, id), other) == GetById(store, other)
  {
  }

  /** Updates keep every event under its own id. */
  lemma UpdateKeepsKeys(store: map<int, EventEntity>, id: int, updated: EventEntity)
    requires WellKeyed(store, IdOf)
    ensures WellKeyed(Update(store, id, updated).0, IdOf)
  {
    var after := Update(store, id, updated).0;
    forall k | k in after
      ensures IdOf(after[k]) == Some(k)
    {
      assert IdOf(store[k]) == Some(k);
    }
  }
}

=== FILE: expense_form.dfy ===
/**
 * `ExpenseForm`: initialisation from `initialValues`, `handleChange` and the
 * category guard of `handleSubmit`.
 */
module ExpenseForm {
  import opened Wrappers
  import opened JsNumber
  import opened Records
  import opened Text
  import opened FormFields

  datatype Form = Form(
    amount: AmountField,
    date: string,
    description: string,
    category: Option<Category>)

  const EmptyForm := Form(NoAmount, "", "", None)

  /** `initialValues`: the expense being edited, any member of which may be missing. */
  datatype Draft = Draft(
    amount: Option<real>,
    date: Option<string>,
    description: Option<string>,
    category: Option<Category>)

  /** The inputs of the form, by their `name` attribute. */
  datatype Field = AmountInput | DateInput | DescriptionInput | CategoryInput

  /**
   * The effect on `[initialValues]`: any `initialValues` (the default `{}`
   * included) fills the form; `None`, a `null` one, leaves it as it is.
   */
  function Init(f: Form, initial: Option<Draft>): (r: Form)
    ensures initial.None? ==> r == f
    ensures initial.Some? ==> var d := initial.value;
      && r.amount == AmountFrom(d.amount) && r.category == d.category
      && r.description == d.description.GetOr("")
      && 'T' !in r.date && (d.date.Some? ==> r.date <= d.date.value) && (d.date.None? ==> r.date == "")
  {
    match initial
    case None => f
    case Some(d) => Form(AmountFrom(d.amount), DateFrom(d.date), d.description.GetOr(""), d.category)
  }

  /** An empty `initialValues` gives the empty form. */
  lemma InitFromNothing(f: Form)
    ensures Init(f, Some(Draft(None, None, None, None))) == EmptyForm
  {
  }

  /** What `onSubmit` receives: the form, the amount parsed (unchecked), and `event: { id: eventId }`. */
  datatype Payload = Payload(
    amount: Num,
    date: string,
    description: string,
    category: Category,
    eventId: string)

  datatype Submission = Submission(form: Form, sent: Option<Payload>)

  /**
   * `handleSubmit`: without a category nothing is sent and the form stays;
   * with one, the form is sent whatever its amount and then cleared, in edit
   * mode too.
   */
  function Submit(f: Form, eventId: string): (r: Submission)
    ensures r.sent.None? <==> f.category.None?
    ensures r.sent.None? ==> r.form == f
    ensures r.sent.Some? ==> r.form == EmptyForm
    ensures r.sent.Some? ==> var p := r.sent.value;
      && Some(p.category) == f.category && p.amount == ParseAmount(f.amount)
      && p.date == f.date && p.description == f.description && p.eventId == eventId
  {
    match f.category
    case None => Submission(f, None)
    case Some(c) => Submission(EmptyForm, Some(Payload(ParseAmount(f.amount), f.date, f.description, c, eventId)))
  }

  /**
   * The amount is not checked: with a category chosen, an empty amount (what
   * a number input holds for text it cannot parse, and the add-mode default),
   * or any typed text that starts with a character no decimal literal can
   * start with, is sent as `NaN`.
   */
  lemma UncheckedAmount(f: Form, eventId: string)
    requires f.category.Some? && f.amount.Typed?
    requires var s := f.amount.text;
      s == [] || (!IsSpace(s[0]) && !IsDigit(s[0]) && s[0] != '+' && s[0] != '-' && s[0] != '.')
    ensures Submit(f, eventId).sent.Some? && Submit(f, eventId).sent.value.amount.NaN?
  {
    if f.amount.text != [] {
      ParseFloatOfWord(f.amount.text);
    }
  }

  /**
   * Opening a stored expense for editing and saving it unchanged sends back
   * its amount, date, description and category.
   */
  lemma {:induction false} EditUnchangedSendsBack(f: Form, d: Draft, eventId: string)
    requires d.amount.Some? && d.amount.value != 0.0
    requires d.date.Some? && 'T' !in d.date.value
    requires d.description.Some? && d.category.Some?
    ensures var r := Submit(Init(f, Some(d)), eventId);
      && r.sent.Some?
      && r.sent.value.amount == Finite(d.amount.value)
      && r.sent.value.date == d.date.value
      && r.sent.value.description == d.description.value
      && r.sent.value.category == d.category.value
  {
    DateFromDateTime(d.date.value, "");
  }

  /** The value an input shows. */
  datatype Shown = ShownText(text: string) | ShownAmount(amount: AmountField) | ShownCategory(category: Option<Category>)

  function Read(f: Form, g: Field): Shown {
    match g
    case AmountInput => ShownAmount(f.amount)
    case DateInput => ShownText(f.date)
    case DescriptionInput => ShownText(f.description)
    case CategoryInput => ShownCategory(f.category)
  }

  /** The named input set to `value`, the category input to `picked`. */
  function Put(f: Form, name: Field, value: string, picked: Option<Category>): (r: Form)
    ensures forall g :: g != name ==> Read(r, g) == Read(f, g)
    ensures Read(r, name) == match name
      case CategoryInput => ShownCategory(picked)
      case AmountInput => ShownAmount(Typed(value))
      case _ => ShownText(value)
  {
    match name
    case AmountInput => f.(amount := Typed(value))
    case DateInput => f.(date := value)
    case DescriptionInput => f.(description := value)
    case CategoryInput => f.(category := picked)
  }

  /**
   * `handleChange`: the named input takes the new value, the category input
   * the category its value picks (or none); every other input keeps its value.
   */
  function Change(f: Form, categories: seq<Category>, name: Field, value: string): (r: Form)
    ensures forall g :: g != name ==> Read(r, g) == Read(f, g)
    ensures name == CategoryInput ==> Read(r, name) == ShownCategory(FindCategory(categories, value))
    ensures name == AmountInput ==> Read(r, name) == ShownAmount(Typed(value))
    ensures name == DateInput || name == DescriptionInput ==> Read(r, name) == ShownText(value)
  {
    Put(f, name, value, FindCategory(categories, value))
  }
}

=== FILE: expense_list.dfy ===
/**
 * The expense list of one event: `applyFilters`, the page view and the
 * category drop-down of `ExpenseList`.
 */
module ExpenseList {
  import opened Wrappers
  import opened Text
  import opened JsNumber
  import opened Records
  import opened Seqs
  import opened TxnFilters
  import opened Pagination
  import opened CategoryOptions

  /** The expense list searches the description and the category name. */
  predicate SearchHit(e: Expense, needle: string) {
    FieldHas(e.description, needle) || (e.category.Some? && Includes(Lower(e.category.value.name), needle))
  }

  const ExpenseFields: Fields<Expense> := Fields((e: Expense) => e.category, (e: Expense) => e.amount, (e: Expense) => e.date, SearchHit)

  /**
   * `applyFilters` followed by `setCurrentPage(1)`: the view shows, from page 1,
   * exactly the loaded expenses that meet every switched-on criterion, in their
   * loaded order; with all fields empty it shows them all.
   */
  function ApplyFilters(expenses: seq<Expense>, f: FilterSet): (v: ListView<Expense>)
    ensures v.currentPage == 1 && ValidView(v)
    ensures IsSubsequence(v.filtered, expenses)
    ensures forall e :: e in v.filtered <==> e in expenses && Matches(ExpenseFields, f, e)
    ensures f == NoFilters ==> v.filtered == expenses
  {
    ShowFiltered(Kept(ExpenseFields, f, expenses))
  }

  /** What a kept expense satisfies, criterion by criterion. */
  lemma KeptExpense(expenses: seq<Expense>, f: FilterSet, e: Expense)
    requires e in ApplyFilters(expenses, f).filtered
    ensures e in expenses
    ensures f.categoryId != "" ==> e.category.Some? && ToNumber(f.categoryId) == Finite(e.category.value.id as real)
    ensures f.amountMin != "" ==> ToNumber(f.amountMin).Finite? && e.amount >= ToNumber(f.amountMin).value
    ensures f.amountMax != "" ==> ToNumber(f.amountMax).Finite? && e.amount <= ToNumber(f.amountMax).value
    ensures f.dateFrom != "" ==> LexLe(f.dateFrom, e.date)
    ensures f.dateTo != "" ==> LexLe(e.date, f.dateTo)
    ensures SearchActive(f) ==> SearchHit(e, Lower(f.searchText))
  {
    assert Matches(ExpenseFields, f, e);
    assert ExpenseFields.category(e) == e.category;
    assert ExpenseFields.amount(e) == e.amount;
    assert ExpenseFields.date(e) == e.date;
    assert ExpenseFields.searchHit(e, Needle(f)) == SearchHit(e, Needle(f));
  }

  /** The categories of the loaded expenses, in order (absent ones included). */
  function CategoriesOf(expenses: seq<Expense>): (r: seq<Option<Category>>)
    ensures |r| == |expenses|
    ensures forall i :: 0 <= i < |expenses| ==> r[i] == expenses[i].category
  {
    if expenses == [] then [] else [expenses[0].category] + CategoriesOf(expenses[1..])
  }

  /**
   * `uniqueCategories`: the categories of the loaded expenses, one per id, no
   * null among them, sorted by name under the locale's collation `le`, and
   * every loaded category's id present.
   */
  function UniqueCategories(le: (string, string) -> bool, expenses: seq<Expense>): (r: seq<Category>)
    requires IsCollation(le)
    ensures DistinctIds(r)
    ensures SortedByName(le, r)
    ensures forall c :: c in r ==> exists e :: e in expenses && e.category == Some(c)
    ensures Ids(r) == PresentIds(CategoriesOf(expenses))
  {
    var cs := CategoriesOf(expenses);
    var d := Distinct(cs);
    var r := SortByName(le, d);
    PermutationKeepsIdsDistinct(d, r);
    forall c | c in r
      ensures exists e :: e in expenses && e.category == Some(c)
    {
      assert c in multiset(r);
      assert c in d;
      var i :| 0 <= i < |cs| && cs[i] == Some(c);
      assert expenses[i] in expenses;
    }
    r
  }
}

=== FILE: expense_service.dfy ===
/** `ExpenseService` over a map from id to expense. */
module ExpenseService {
  import opened Wrappers
  import opened Entities

  function IdOf(e: ExpenseEntity): Option<int> { e.id }

  /** `getExpensesByEvent`: the expenses of one event, by id. */
  function ByEvent(store: map<int, ExpenseEntity>, eventId: int): (r: map<int, ExpenseEntity>)
    ensures forall k :: k in r <==> k in store && store[k].eventId == Some(eventId)
    ensures forall k :: k in r ==> r[k] == store[k]
  {
    map k | k in store && store[k].eventId == Some(eventId) :: store[k]
  }

  /** `getExpenseById`. */
  function GetById(store: map<int, ExpenseEntity>, id: int): (r: Option<ExpenseEntity>)
    ensures r.Some? <==> id in store
    ensures r.Some? ==> r.value == store[id]
  {
    if id in store then Some(store[id]) else None
  }

  /**
   * `createExpense`: the category is resolved, then the expense is saved under
   * the id the database generates (`newId`, one not yet in use).
   */
  function Create(store: map<int, ExpenseEntity>, categories: map<int, CategoryEntity>, expense: ExpenseEntity, newId: int): (r: (map<int, ExpenseEntity>, ExpenseEntity))
    requires newId !in store
    ensures r.0.Keys == store.Keys + {newId} && r.0[newId] == r.1
    ensures forall k :: k in store ==> r.0[k] == store[k]
    ensures r.1 == expense.(id := Some(newId), category := ResolveCategory(expense.category, expense.category, categories))
    ensures WellKeyed(store, IdOf) ==> WellKeyed(r.0, IdOf)
  {
    var saved := expense.(id := Some(newId), category := ResolveCategory(expense.category, expense.category, categories));
    (store[newId := saved], saved)
  }

  /**
   * `updateExpense`: `None` (Java `null`) for an unknown id, the store
   * untouched. Otherwise the category changes only to a stored one, and
   * amount, date and description are copied; id and event stay.
   */
  function Update(store: map<int, ExpenseEntity>, categories: map<int, CategoryEntity>, id: int, updated: ExpenseEntity): (r: (map<int, ExpenseEntity>, Option<ExpenseEntity>))
    ensures id !in store ==> r.0 == store && r.1 == None
    ensures id in store ==> r.1.Some? && r.0 == store[id := r.1.value]
    ensures id in store ==> var before := store[id]; var x := r.1.value;
      && x.id == before.id && x.eventId == before.eventId
      && x.amount == updated.amount && x.date == updated.date && x.description == updated.description
      && (NamesStored(updated.category, categories) ==> x.category == Some(categories[updated.category.value.id.value]))
      && (!NamesStored(updated.category, categories) ==> x.category == before.category)
  {
    if id !in store then (store, None)
    else
      var before := store[id];
      var withCategory := before.(category := ResolveCategory(before.category, updated.category, categories));
      var x := withCategory.(amount := updated.amount, date := updated.date, description := updated.description);
      (store[id := x], Some(x))
  }

  /** `deleteExpense`: only that id goes. */
  function Delete(store: map<int, ExpenseEntity>, id: int): (r: map<int, ExpenseEntity>)
    ensures r.Keys == store.Keys - {id}
    ensures forall k :: k in r ==> r[k] == store[k]
  {
    store - {id}
  }

  /** Updates keep every expense under its own id and in its own event. */
  lemma UpdateKeepsKeysAndEvents(store: map<int, ExpenseEntity>, categories: map<int, CategoryEntity>, id: int, updated: ExpenseEntity, eventId: int)
    requires WellKeyed(store, IdOf)
    ensures WellKeyed(Update(store, categories, id, updated).0, IdOf)
    ensures ByEvent(Update(store, categories, id, updated).0, eventId).Keys == ByEvent(store, eventId).Keys
  {
    var after := Update(store, categories, id, updated).0;
    assert after.Keys == store.Keys;
    forall k | k in after
      ensures IdOf(after[k]) == Some(k)
    {
      assert IdOf(store[k]) == Some(k);
    }
  }

  /** Sending the same update twice is sending it once. */
  lemma UpdateIdempotent(store: map<int, ExpenseEntity>, categories: map<int, CategoryEntity>, id: int, updated: ExpenseEntity)
    ensures var once := Update(store, categories, id, updated);
      Update(once.0, categories, id, updated) == (once.0, once.1)
  {
    if id in store {
      var once := Update(store, categories, id, updated);
      var x := once.1.value;
      ResolveIdempotent(store[id].category, updated.category, categories);
      var twice := Update(once.0, categories, id, updated);
      assert once.0[id] == x;
      assert twice.1.value == x;
      assert twice.0 == once.0[id := x];
      assert once.0[id := x] == once.0;
    }
  }

  /** Deleting removes the expense from its event's list and leaves the rest as they were. */
  lemma DeleteThenByEvent(store: map<int, ExpenseEntity>, id: int, eventId: int)
    ensures ByEvent(Delete(store, id), eventId) == ByEvent(store, eventId) - {id}
  {
  }

  /** A created expense is found under its new id and among its event's expenses. */
  lemma CreateThenFind(store: map<int, ExpenseEntity>, categories: map<int, CategoryEntity>, expense: ExpenseEntity, newId: int)
    requires newId !in store && expense.eventId.Some?
    ensures var r := Create(store, categories, expense, newId);
      && GetById(r.0, newId) == Some(r.1)
      && newId in ByEvent(r.0, expense.eventId.value)
      && newId !in ByEvent(store, expense.eventId.value)
  {
  }
}

=== FILE: footer.dfy ===
/**
 * `Footer`: the newsletter form (`handleSubscribe` and its email pattern
 * `/\S+@\S+\.\S+/`) and the collapsible sections (`toggleAccordion`).
 */
module Footer {
  import opened Text

  /** No whitespace in `s[i..j]` (every character there matches `\S`). */
  predicate NoSpace(s: string, i: int, j: int)
    requires 0 <= i <= j <= |s|
  {
    forall k :: i <= k < j ==> !IsSpace(s[k])
  }

  /**
   * The pattern matches `s[i..e]` as `\S+` `s[i..b]`, `@` at `b`, `\S+`
   * `s[b+1..c]`, `.` at `c` and `\S+` `s[c+1..e]`.
   */
  predicate MatchAt(s: string, i: int, b: int, c: int, e: int) {
    && 0 <= i < b && b + 1 < c && c + 1 < e <= |s|
    && NoSpace(s, i, b) && s[b] == '@' && NoSpace(s, b + 1, c) && s[c] == '.' && NoSpace(s, c + 1, e)
  }

  /** `/\S+@\S+\.\S+/.test(s)`: the pattern is not anchored, so it may match anywhere. */
  ghost predicate PatternMatches(s: string) {
    exists i, b, c, e :: MatchAt(s, i, b, c, e)
  }

  /** The shortest match around an `@` at `b` and a `.` at `c`: one character on each side is enough. */
  predicate ShapeAt(s: string, b: int, c: int) {
    && 0 < b && b + 1 < c && c + 1 < |s|
    && !IsSpace(s[b - 1]) && s[b] == '@' && NoSpace(s, b + 1, c) && s[c] == '.' && !IsSpace(s[c + 1])
  }

  lemma MatchIffShape(s: string)
    ensures PatternMatches(s) <==> exists b, c :: ShapeAt(s, b, c)
  {
    if PatternMatches(s) {
      var i, b, c, e :| MatchAt(s, i, b, c, e);
      assert ShapeAt(s, b, c);
    }
    if exists b, c :: ShapeAt(s, b, c) {
      var b, c :| ShapeAt(s, b, c);
      assert MatchAt(s, b - 1, b, c, c + 2);
    }
  }

  /** The check `handleSubscribe` makes, as a search for an `@` and a later `.`. */
  function IsValidEmail(email: string): (ok: bool)
    ensures ok <==> PatternMatches(email)
  {
    MatchIffShape(email);
    exists b, c | 0 < b < |email| && 0 < c < |email| :: ShapeAt(email, b, c)
  }

  const InvalidEmailMessage := "Please enter a valid email address."

  /** The newsletter input and the error shown under it. */
  datatype Newsletter = Newsletter(email: string, error: string)

  /** `handleSubscribe`: an address the pattern rejects keeps the input and shows the error; any other clears both. */
  function Subscribe(s: Newsletter): (r: Newsletter)
    ensures !PatternMatches(s.email) ==> r == Newsletter(s.email, InvalidEmailMessage)
    ensures PatternMatches(s.email) ==> r == Newsletter("", "")
  {
    if !IsValidEmail(s.email) then s.(error := InvalidEmailMessage) else Newsletter("", "")
  }

  /** Subscribing again right after a success finds the input empty, which the pattern rejects. */
  lemma SubscribeTwice(s: Newsletter)
    requires PatternMatches(s.email)
    ensures Subscribe(Subscribe(s)) == Newsletter("", InvalidEmailMessage)
  {
    assert !PatternMatches("") by {
      MatchIffShape("");
    }
  }

  /** A plain address is accepted; one with no dot after the `@`, or a space before it, is not. */
  lemma EmailExamples()
    ensures PatternMatches("a@b.c")
    ensures !PatternMatches("a@bc")
    ensures !PatternMatches("a @b.c")
  {
    MatchIffShape("a@b.c");
    assert ShapeAt("a@b.c", 1, 3);
    MatchIffShape("a@bc");
    MatchIffShape("a @b.c");
    assert forall b, c :: ShapeAt("a @b.c", b, c) ==> b == 2 && !ShapeAt("a @b.c", b, c);
  }

  /** The sections of the footer that collapse on small screens. */
  datatype Section = Quick | Info | Contact | NewsletterSection

  /** Which sections are open; all start closed. */
  datatype Accordion = Accordion(quick: bool, info: bool, contact: bool, newsletter: bool)

  const AllClosed := Accordion(false, false, false, false)

  function IsOpen(a: Accordion, s: Section): bool {
    match s
    case Quick => a.quick
    case Info => a.info
    case Contact => a.contact
    case NewsletterSection => a.newsletter
  }

  /** `toggleAccordion(section)`: that section opens or closes, and no other changes. */
  function Toggle(a: Accordion, s: Section): (r: Accordion)
    ensures IsOpen(r, s) == !IsOpen(a, s)
    ensures forall t :: t != s ==> IsOpen(r, t) == IsOpen(a, t)
  {
    match s
    case Quick => a.(quick := !a.quick)
    case Info => a.(info := !a.info)
    case Contact => a.(contact := !a.contact)
    case NewsletterSection => a.(newsletter := !a.newsletter)
  }

  /** Toggling a section twice restores the accordion. */
  lemma ToggleTwice(a: Accordion, s: Section)
    ensures Toggle(Toggle(a, s), s) == a
  {
  }
}

=== FILE: form_fields.dfy ===
/**
 * What the income and expense forms share: the amount input, the category
 * picker (`categories.find(cat => cat.id === parseInt(value))`) and the
 * date normalisation of edit mode (`date.split('T')[0]`).
 */
module FormFields {
  import opened Wrappers
  import opened Text
  import opened JsNumber
  import opened Records

  /**
   * The amount a form holds: the text typed into the input, or the number an
   * edited record brought with it (`initialValues.amount`).
   */
  datatype AmountField = Typed(text: string) | Loaded(value: real)

  const NoAmount := Typed("")

  /** `initialValues.amount || ''`: a missing or zero amount leaves the input empty. */
  function AmountFrom(amount: Option<real>): (r: AmountField)
    ensures amount.Some? && amount.value != 0.0 ==> r == Loaded(amount.value)
    ensures amount.None? || amount.value == 0.0 ==> r == NoAmount
  {
    if amount.Some? && amount.value != 0.0 then Loaded(amount.value) else NoAmount
  }

  /** `parseFloat(form.amount)`. */
  function ParseAmount(a: AmountField): Num {
    match a
    case Typed(s) => ParseFloat(s)
    case Loaded(v) => Finite(v)
  }

  /** `initialValues.date ? initialValues.date.split('T')[0] : ''`. */
  function DateFrom(date: Option<string>): (r: string)
    ensures 'T' !in r
    ensures date.Some? ==> r <= date.value
    ensures date.None? ==> r == ""
  {
    if date.Some? then BeforeFirst(date.value, 'T') else ""
  }

  /** The date part of a date-time is kept whole, and a plain date passes unchanged. */
  lemma {:induction false} DateFromDateTime(day: string, time: string)
    requires 'T' !in day
    ensures DateFrom(Some(day + "T" + time)) == day
    ensures DateFrom(Some(day)) == day
  {
    BeforeFirstUpTo(day, "T" + time);
    assert day + "T" + time == day + ("T" + time);
    BeforeFirstUpTo(day, []);
    assert day + [] == day;
  }

  lemma {:induction false} BeforeFirstUpTo(day: string, rest: string)
    requires 'T' !in day
    requires rest == [] || rest[0] == 'T'
    ensures BeforeFirst(day + rest, 'T') == day
  {
    if day != [] {
      assert (day + rest)[0] == day[0];
      assert (day + rest)[1..] == day[1..] + rest;
      BeforeFirstUpTo(day[1..], rest);
      assert [day[0]] + day[1..] == day;
    } else {
      assert day + rest == rest;
    }
  }

  /** Whether a category is the one a picked option's value names (`cat.id === parseInt(value)`). */
  predicate Picks(value: string, c: Category) {
    ParseInt(value) == Finite(c.id as real)
  }

  /** `k` is the first position whose category the value names. */
  predicate FirstPick(categories: seq<Category>, value: string, k: int) {
    && 0 <= k < |categories|
    && Picks(value, categories[k])
    && forall j :: 0 <= j < k ==> !Picks(value, categories[j])
  }

  /** `categories.find(...) || null`: the first category the value names, if any. */
  function FindCategory(categories: seq<Category>, value: string): (r: Option<Category>)
    ensures r.None? <==> forall c :: c in categories ==> !Picks(value, c)
    ensures r.Some? ==> exists k :: FirstPick(categories, value, k) && categories[k] == r.value
  {
    if categories == [] then None
    else if Picks(value, categories[0]) then Some(categories[0])
    else
      var r := FindCategory(categories[1..], value);
      assert forall c :: c in categories[1..] ==> c in categories;
      assert forall c :: c in categories ==> c == categories[0] || c in categories[1..];
      if r.Some? then
        var k :| FirstPick(categories[1..], value, k) && categories[1..][k] == r.value;
        assert categories[k + 1] == r.value;
        assert FirstPick(categories, value, k + 1) by {
          forall j | 0 <= j < k + 1
            ensures !Picks(value, categories[j])
          {
            if j > 0 {
              assert categories[j] == categories[1..][j - 1];
            }
          }
        }
        r
      else
        r
  }

  /** Picking the option of a category (its id written out) selects that category when ids are distinct. */
  lemma PickingAnOptionSelectsIt(categories: seq<Category>, c: Category)
    requires c in categories && c.id >= 0
    requires forall d :: d in categories && d.id == c.id ==> d == c
    ensures FindCategory(categories, NatText(c.id as nat)) == Some(c)
  {
    ParseIntOfNatText(c.id as nat);
    var r := FindCategory(categories, NatText(c.id as nat));
    assert Picks(NatText(c.id as nat), c);
    var k :| FirstPick(categories, NatText(c.id as nat), k) && categories[k] == r.value;
    assert r.value.id == c.id;
  }
}

=== FILE: income_form.dfy ===
/**
 * `IncomeForm`: edit-mode initialisation, `validate`, `handleChange` and
 * `handleSubmit`.
 */
module IncomeForm {
  import opened Wrappers
  import opened Text
  import opened JsNumber
  import opened Records
  import opened FormFields

  datatype Form = Form(
    sourceName: string,
    amount: AmountField,
    date: string,
    description: string,
    category: Option<Category>)

  const EmptyForm := Form("", NoAmount, "", "", None)

  /** `initialValues`: the income being edited, any member of which may be missing. */
  datatype Draft = Draft(
    sourceName: Option<string>,
    amount: Option<real>,
    date: Option<string>,
    description: Option<string>,
    category: Option<Category>)

  /** The inputs of the form, by their `name` attribute. */
  datatype Field = SourceNameInput | AmountInput | DateInput | DescriptionInput | CategoryInput

  /** The form and the error messages recorded by the last `validate`. */
  datatype State = State(form: Form, errors: set<Field>)

  const Cleared := State(EmptyForm, {})

  /** The form an edited income fills in. */
  function FromDraft(d: Draft): (f: Form)
    ensures f.sourceName == d.sourceName.GetOr("") && f.description == d.description.GetOr("")
    ensures f.category == d.category
    ensures f.amount == AmountFrom(d.amount)
    ensures 'T' !in f.date && (d.date.Some? ==> f.date <= d.date.value) && (d.date.None? ==> f.date == "")
  {
    Form(d.sourceName.GetOr(""), AmountFrom(d.amount), DateFrom(d.date), d.description.GetOr(""), d.category)
  }

  /**
   * The effect on `[initialValues, isEditing]`: editing a record fills the form
   * from it, leaving edit mode clears it; both clear the errors. `None` is a
   * `null` `initialValues`.
   */
  function Init(s: State, isEditing: bool, initial: Option<Draft>): (r: State)
    ensures isEditing && initial.Some? ==> r == State(FromDraft(initial.value), {})
    ensures !isEditing ==> r == Cleared
    ensures isEditing && initial.None? ==> r == s
  {
    if isEditing && initial.Some? then State(FromDraft(initial.value), {})
    else if !isEditing then Cleared
    else s
  }

  /** `!form.amount || isNaN(form.amount) || Number(form.amount) <= 0`. */
  predicate AmountRejected(a: AmountField) {
    match a
    case Typed(s) => s == "" || ToNumber(s).NaN? || ToNumber(s).value <= 0.0
    case Loaded(v) => v <= 0.0
  }

  /** The amount reads as a positive number. */
  predicate Positive(a: AmountField) {
    match a
    case Typed(s) => ToNumber(s).Finite? && ToNumber(s).value > 0.0
    case Loaded(v) => v > 0.0
  }

  /** The guard on the amount rejects exactly the amounts that are not positive numbers (an empty text reads as 0). */
  lemma RejectedIffNotPositive(a: AmountField)
    ensures AmountRejected(a) <==> !Positive(a)
  {
    if a.Typed? && a.text == "" {
      assert Trim(a.text) == [];
    }
  }

  /**
   * `validate`: the inputs that get an error message. A blank source name, an
   * amount that is not a positive number, an empty date and a missing category
   * each get one; the description never does.
   */
  function Validate(f: Form): (errs: set<Field>)
    ensures SourceNameInput in errs <==> Blank(f.sourceName)
    ensures AmountInput in errs <==> !Positive(f.amount)
    ensures DateInput in errs <==> f.date == ""
    ensures CategoryInput in errs <==> f.category.None?
    ensures DescriptionInput !in errs
  {
    var noName := Trim(f.sourceName) == [];
    var badAmount := AmountRejected(f.amount);
    assert noName <==> Blank(f.sourceName) by { TrimEmptyIffBlank(f.sourceName); }
    assert badAmount <==> !Positive(f.amount) by { RejectedIffNotPositive(f.amount); }
    Errors(noName, badAmount, f.date == "", f.category.None?)
  }

  /** The keys of `errs` after the four checks, given which of them failed. */
  function Errors(noName: bool, badAmount: bool, noDate: bool, noCategory: bool): (errs: set<Field>)
    ensures SourceNameInput in errs <==> noName
    ensures AmountInput in errs <==> badAmount
    ensures DateInput in errs <==> noDate
    ensures CategoryInput in errs <==> noCategory
    ensures DescriptionInput !in errs
  {
    (if noName then {SourceNameInput} else {}) + (if badAmount then {AmountInput} else {})
      + (if noDate then {DateInput} else {}) + (if noCategory then {CategoryInput} else {})
  }

  /** An accepted amount is sent as the positive number it reads as. */
  lemma AcceptedAmountIsPositive(a: AmountField)
    requires !AmountRejected(a)
    ensures ParseAmount(a).Finite? && ParseAmount(a).value > 0.0
    ensures a.Typed? ==> ParseAmount(a) == ToNumber(a.text)
  {
    if a.Typed? {
      if Blank(a.text) {
        TrimEmptyIffBlank(a.text);
      } else {
        ParseFloatAgreesWithNumber(a.text);
      }
    }
  }

  /** What `onSubmit` receives: the form, the amount parsed, and `event: { id: eventId }`. */
  datatype Payload = Payload(
    sourceName: string,
    amount: Num,
    date: string,
    description: string,
    category: Option<Category>,
    eventId: string)

  datatype Submission = Submission(state: State, sent: Option<Payload>)

  /** `handleSubmit`. */
  function Submit(s: State, isEditing: bool, eventId: string): (r: Submission)
    ensures r.sent.Some? <==> Validate(s.form) == {}
    ensures r.state.errors == Validate(s.form)
    ensures r.sent.None? ==> r.state.form == s.form
    ensures r.sent.Some? ==> var p := r.sent.value;
      && p.sourceName == s.form.sourceName && p.date == s.form.date
      && p.description == s.form.description && p.category == s.form.category
      && p.eventId == eventId && p.amount == ParseAmount(s.form.amount)
      && p.amount.Finite? && p.amount.value > 0.0
      && p.category.Some? && p.date != "" && !Blank(p.sourceName)
    ensures r.sent.Some? ==> (r.state.form == EmptyForm <==> !isEditing)
  {
    var errs := Validate(s.form);
    if errs != {} then Submission(State(s.form, errs), None)
    else
      assert AmountInput !in errs;
      AcceptedAmountIsPositive(s.form.amount);
      var f := s.form;
      Submission(State(if isEditing then f else EmptyForm, errs),
        Some(Payload(f.sourceName, ParseAmount(f.amount), f.date, f.description, f.category, eventId)))
  }

  /** The value an input shows. */
  datatype Shown = ShownText(text: string) | ShownAmount(amount: AmountField) | ShownCategory(category: Option<Category>)

  function Read(f: Form, g: Field): Shown {
    match g
    case SourceNameInput => ShownText(f.sourceName)
    case AmountInput => ShownAmount(f.amount)
    case DateInput => ShownText(f.date)
    case DescriptionInput => ShownText(f.description)
    case CategoryInput => ShownCategory(f.category)
  }

  /** The named input set to `value`, the category input to `picked`. */
  function Put(f: Form, name: Field, value: string, picked: Option<Category>): (r: Form)
    ensures forall g :: g != name ==> Read(r, g) == Read(f, g)
    ensures Read(r, name) == match name
      case CategoryInput => ShownCategory(picked)
      case AmountInput => ShownAmount(Typed(value))
      case _ => ShownText(value)
  {
    match name
    case SourceNameInput => f.(sourceName := value)
    case AmountInput => f.(amount := Typed(value))
    case DateInput => f.(date := value)
    case DescriptionInput => f.(description := value)
    case CategoryInput => f.(category := picked)
  }

  /**
   * `handleChange`: the named input takes the new value, the category input
   * the category its value picks (or none); every other input keeps its value.
   */
  function Change(s: State, categories: seq<Category>, name: Field, value: string): (r: State)
    ensures r.errors == s.errors
    ensures forall g :: g != name ==> Read(r.form, g) == Read(s.form, g)
    ensures name == CategoryInput ==> Read(r.form, name) == ShownCategory(FindCategory(categories, value))
    ensures name == AmountInput ==> Read(r.form, name) == ShownAmount(Typed(value))
    ensures name != CategoryInput && name != AmountInput ==> Read(r.form, name) == ShownText(value)
  {
    s.(form := Put(s.form, name, value, FindCategory(categories, value)))
  }
}

=== FILE: income_list.dfy ===
/**
 * The income list of one event: `applyFilters`, the page view and the
 * category drop-down of `IncomeList`.
 */
module IncomeList {
  import opened Wrappers
  import opened Text
  import opened JsNumber
  import opened Records
  import opened Seqs
  import opened TxnFilters
  import opened Pagination
  import opened CategoryOptions

  /** The income list searches the source name and the description, not the category name. */
  predicate SearchHit(i: Income, needle: string) {
    FieldHas(i.sourceName, needle) || FieldHas(i.description, needle)
  }

  const IncomeFields: Fields<Income> :=
    Fields((i: Income) => i.category, (i: Income) => i.amount, (i: Income) => i.date, SearchHit)

  /**
   * `applyFilters`, and the effect that puts the page back to 1 whenever the
   * filtered list changes: the view shows, from page 1, exactly the loaded
   * incomes that meet every switched-on criterion, in their loaded order.
   */
  function ApplyFilters(incomes: seq<Income>, f: FilterSet): (v: ListView<Income>)
    ensures v.currentPage == 1 && ValidView(v)
    ensures IsSubsequence(v.filtered, incomes)
    ensures forall i :: i in v.filtered <==> i in incomes && Matches(IncomeFields, f, i)
    ensures f == NoFilters ==> v.filtered == incomes
  {
    ShowFiltered(Kept(IncomeFields, f, incomes))
  }

  /** What a kept income satisfies, criterion by criterion. */
  lemma KeptIncome(incomes: seq<Income>, f: FilterSet, i: Income)
    requires i in ApplyFilters(incomes, f).filtered
    ensures i in incomes
    ensures f.categoryId != "" ==> i.category.Some? && ToNumber(f.categoryId) == Finite(i.category.value.id as real)
    ensures f.amountMin != "" ==> ToNumber(f.amountMin).Finite? && i.amount >= ToNumber(f.amountMin).value
    ensures f.amountMax != "" ==> ToNumber(f.amountMax).Finite? && i.amount <= ToNumber(f.amountMax).value
    ensures f.dateFrom != "" ==> LexLe(f.dateFrom, i.date)
    ensures f.dateTo != "" ==> LexLe(i.date, f.dateTo)
    ensures SearchActive(f) ==> FieldHas(i.sourceName, Lower(f.searchText)) || FieldHas(i.description, Lower(f.searchText))
  {
    assert Matches(IncomeFields, f, i);
    assert IncomeFields.category(i) == i.category;
    assert IncomeFields.amount(i) == i.amount;
    assert IncomeFields.date(i) == i.date;
    assert IncomeFields.searchHit(i, Needle(f)) == SearchHit(i, Needle(f));
  }

  /** The categories of the loaded incomes, in order (absent ones included). */
  function CategoriesOf(incomes: seq<Income>): (r: seq<Option<Category>>)
    ensures |r| == |incomes|
    ensures forall k :: 0 <= k < |incomes| ==> r[k] == incomes[k].category
  {
    if incomes == [] then [] else [incomes[0].category] + CategoriesOf(incomes[1..])
  }

  /**
   * `uniqueCategories`: the categories of the loaded incomes, one per id and
   * no null among them, every loaded category's id present (not sorted).
   */
  function UniqueCategories(incomes: seq<Income>): (r: seq<Category>)
    ensures DistinctIds(r)
    ensures forall c :: c in r ==> exists i :: i in incomes && i.category == Some(c)
    ensures Ids(r) == PresentIds(CategoriesOf(incomes))
  {
    var cs := CategoriesOf(incomes);
    var r := Distinct(cs);
    forall c | c in r
      ensures exists i :: i in incomes && i.category == Some(c)
    {
      var k :| 0 <= k < |cs| && cs[k] == Some(c);
      assert incomes[k] in incomes;
    }
    r
  }

  /** A minimum typed as a whole number keeps exactly the incomes of at least that amount. */
  lemma MinimumAmountKeeps(incomes: seq<Income>, n: nat, i: Income)
    ensures i in ApplyFilters(incomes, NoFilters.(amountMin := NatText(n))).filtered
      <==> i in incomes && i.amount >= n as real
  {
    var f := NoFilters.(amountMin := NatText(n));
    NumberOfNatText(n);
    assert Matches(IncomeFields, f, i) <==> i.amount >= n as real;
  }
}

=== FILE: income_service.dfy ===
/** `IncomeService` over a map from id to income. */
module IncomeService {
  import opened Wrappers
  import opened Entities

  function IdOf(i: IncomeEntity): Option<int> { i.id }

  /** `getIncomesByEvent`: the incomes of one event, by id. */
  function ByEvent(store: map<int, IncomeEntity>, eventId: int): (r: map<int, IncomeEntity>)
    ensures forall k :: k in r <==> k in store && store[k].eventId == Some(eventId)
    ensures forall k :: k in r ==> r[k] == store[k]
  {
    map k | k in store && store[k].eventId == Some(eventId) :: store[k]
  }

  /** `getIncomeById`. */
  function GetById(store: map<int, IncomeEntity>, id: int): (r: Option<IncomeEntity>)
    ensures r.Some? <==> id in store
    ensures r.Some? ==> r.value == store[id]
  {
    if id in store then Some(store[id]) else None
  }

  /**
   * `createIncome`: the category is resolved, then the income is saved under
   * the id the database generates (`newId`, one not yet in use).
   */
  function Create(store: map<int, IncomeEntity>, categories: map<int, CategoryEntity>, income: IncomeEntity, newId: int): (r: (map<int, IncomeEntity>, IncomeEntity))
    requires newId !in store
    ensures r.0.Keys == store.Keys + {newId} && r.0[newId] == r.1
    ensures forall k :: k in store ==> r.0[k] == store[k]
    ensures r.1 == income.(id := Some(newId), category := ResolveCategory(income.category, income.category, categories))
    ensures WellKeyed(store, IdOf) ==> WellKeyed(r.0, IdOf)
  {
    var saved := income.(id := Some(newId), category := ResolveCategory(income.category, income.category, categories));
    (store[newId := saved], saved)
  }

  /**
   * `updateIncome`: `None` (Java `null`) for an unknown id, the store
   * untouched. Otherwise source name, amount, date and description are copied,
   * `null`s included; the category changes only to a stored one; id and event stay.
   */
  function Update(store: map<int, IncomeEntity>, categories: map<int, CategoryEntity>, id: int, updated: IncomeEntity): (r: (map<int, IncomeEntity>, Option<IncomeEntity>))
    ensures id !in store ==> r.0 == store && r.1 == None
    ensures id in store ==> r.1.Some? && r.0 == store[id := r.1.value]
    ensures id in store ==> var before := store[id]; var x := r.1.value;
      && x.id == before.id && x.eventId == before.eventId
      && x.sourceName == updated.sourceName && x.amount == updated.amount
      && x.date == updated.date && x.description == updated.description
      && (NamesStored(updated.category, categories) ==> x.category == Some(categories[updated.category.value.id.value]))
      && (!NamesStored(updated.category, categories) ==> x.category == before.category)
  {
    if id !in store then (store, None)
    else
      var before := store[id];
      var x := before.(sourceName := updated.sourceName, amount := updated.amount, date := updated.date,
        description := updated.description, category := ResolveCategory(before.category, updated.category, categories));
      (store[id := x], Some(x))
  }

  /** `deleteIncome`: only that id goes. */
  function Delete(store: map<int, IncomeEntity>, id: int): (r: map<int, IncomeEntity>)
    ensures r.Keys == store.Keys - {id}
    ensures forall k :: k in r ==> r[k] == store[k]
  {
    store - {id}
  }

  /** Updates keep every income under its own id and in its own event. */
  lemma UpdateKeepsKeysAndEvents(store: map<int, IncomeEntity>, categories: map<int, CategoryEntity>, id: int, updated: IncomeEntity, eventId: int)
    requires WellKeyed(store, IdOf)
    ensures WellKeyed(Update(store, categories, id, updated).0, IdOf)
    ensures ByEvent(Update(store, categories, id, updated).0, eventId).Keys == ByEvent(store, eventId).Keys
  {
    var after := Update(store, categories, id, updated).0;
    assert after.Keys == store.Keys;
    forall k | k in after
      ensures IdOf(after[k]) == Some(k)
    {
      assert IdOf(store[k]) == Some(k);
    }
  }

  /** Sending the same update twice is sending it once. */
  lemma UpdateIdempotent(store: map<int, IncomeEntity>, categories: map<int, CategoryEntity>, id: int, updated: IncomeEntity)
    ensures var once := Update(store, categories, id, updated);
      Update(once.0, categories, id, updated) == (once.0, once.1)
  {
    if id in store {
      var once := Update(store, categories, id, updated);
      var x := once.1.value;
      ResolveIdempotent(store[id].category, updated.category, categories);
      var twice := Update(once.0, categories, id, updated);
      assert once.0[id] == x;
      assert twice.1.value == x;
      assert twice.0 == once.0[id := x];
      assert once.0[id := x] == once.0;
    }
  }

  /** A created income is found under its new id and among its event's incomes. */
  lemma CreateThenFind(store: map<int, IncomeEntity>, categories: map<int, CategoryEntity>, income: IncomeEntity, newId: int)
    requires newId !in store && income.eventId.Some?
    ensures var r := Create(store, categories, income, newId);
      && GetById(r.0, newId) == Some(r.1)
      && newId in ByEvent(r.0, income.eventId.value)
      && newId !in ByEvent(store, income.eventId.value)
  {
  }

  /** Deleting removes the income from every query and leaves the rest as they were. */
  lemma DeleteThenFind(store: map<int, IncomeEntity>, id: int, eventId: int)
    ensures GetById(Delete(store, id), id) == None
    ensures ByEvent(Delete(store, id), eventId) == ByEvent(store, eventId) - {id}
  {
  }
}

=== FILE: js_map.dfy ===
/**
 * A JavaScript `Map` as its list of entries in insertion order, enough to
 * model `new Map(pairs).values()`.
 */
module JsMap {
  import opened Wrappers

  /** The set of keys of a list of pairs. */
  function KeysOf<K, V>(es: seq<(K, V)>): set<K> {
    set i | 0 <= i < |es| :: es[i].0
  }

  lemma KeysOfAppend<K, V>(a: seq<(K, V)>, b: seq<(K, V)>)
    ensures KeysOf(a + b) == KeysOf(a) + KeysOf(b)
  {
    var ab := a + b;
    forall x | x in KeysOf(ab)
      ensures x in KeysOf(a) + KeysOf(b)
    {
      var i :| 0 <= i < |ab| && ab[i].0 == x;
      if i >= |a| {
        assert b[i - |a|].0 == x;
      }
    }
    forall x | x in KeysOf(a) + KeysOf(b)
      ensures x in KeysOf(ab)
    {
      if x in KeysOf(a) {
        var i :| 0 <= i < |a| && a[i].0 == x;
        assert ab[i].0 == x;
      } else {
        var i :| 0 <= i < |b| && b[i].0 == x;
        assert ab[|a| + i].0 == x;
      }
    }
  }

  /** No key occurs twice. */
  predicate DistinctKeys<K(==), V>(es: seq<(K, V)>) {
    forall i, j :: 0 <= i < j < |es| ==> es[i].0 != es[j].0
  }

  /** The value paired with `k` by the last pair that has key `k`, if any. */
  function LastValue<K(==), V>(pairs: seq<(K, V)>, k: K): (r: Option<V>)
    ensures r.Some? <==> k in KeysOf(pairs)
    ensures r.Some? ==> (k, r.value) in pairs
  {
    if pairs == [] then None
    else if pairs[|pairs| - 1].0 == k then Some(pairs[|pairs| - 1].1)
    else
      var r := LastValue(pairs[..|pairs| - 1], k);
      assert KeysOf(pairs) == KeysOf(pairs[..|pairs| - 1]) + {pairs[|pairs| - 1].0};
      r
  }

  /** The position of key `k`, or -1. */
  function IndexOf<K(==), V>(es: seq<(K, V)>, k: K): (i: int)
    ensures -1 <= i < |es|
    ensures i >= 0 ==> es[i].0 == k
    ensures i < 0 ==> k !in KeysOf(es)
  {
    if es == [] then -1
    else if es[|es| - 1].0 == k then |es| - 1
    else
      assert KeysOf(es) == KeysOf(es[..|es| - 1]) + {es[|es| - 1].0};
      IndexOf(es[..|es| - 1], k)
  }

  /** `map.set(k, v)`: a new key goes last; a known key keeps its place and takes the new value. */
  function Set<K(==), V>(es: seq<(K, V)>, k: K, v: V): (r: seq<(K, V)>)
    requires DistinctKeys(es)
    ensures DistinctKeys(r)
    ensures KeysOf(r) == KeysOf(es) + {k}
    ensures forall i :: 0 <= i < |r| ==> if r[i].0 == k then r[i].1 == v else r[i] in es
  {
    var i := IndexOf(es, k);
    if i < 0 then
      KeysOfAppend(es, [(k, v)]);
      assert [(k, v)][0].0 == k;
      assert KeysOf([(k, v)]) == {k};
      es + [(k, v)]
    else
      var r := es[i := (k, v)];
      assert KeysOf(r) == KeysOf(es) by {
        forall x | x in KeysOf(r)
          ensures x in KeysOf(es)
        {
          var j :| 0 <= j < |r| && r[j].0 == x;
          assert es[j].0 == x;
        }
        forall x | x in KeysOf(es)
          ensures x in KeysOf(r)
        {
          var j :| 0 <= j < |es| && es[j].0 == x;
          assert r[j].0 == x;
        }
      }
      r
  }

  /** `new Map(pairs)`: later pairs overwrite the value of an earlier key. */
  function FromPairs<K(==), V>(pairs: seq<(K, V)>): (r: seq<(K, V)>)
    ensures DistinctKeys(r)
    ensures KeysOf(r) == KeysOf(pairs)
    ensures forall i :: 0 <= i < |r| ==> LastValue(pairs, r[i].0) == Some(r[i].1)
  {
    if pairs == [] then []
    else
      var init := pairs[..|pairs| - 1];
      var last := pairs[|pairs| - 1];
      var r := Set(FromPairs(init), last.0, last.1);
      assert KeysOf(pairs) == KeysOf(init) + {last.0};
      forall i | 0 <= i < |r|
        ensures LastValue(pairs, r[i].0) == Some(r[i].1)
      {
        if r[i].0 != last.0 {
          var j :| 0 <= j < |FromPairs(init)| && FromPairs(init)[j] == r[i];
        }
      }
      r
  }

  /** `map.values()` in entry order. */
  function Values<K, V>(es: seq<(K, V)>): (r: seq<V>)
    ensures |r| == |es|
    ensures forall i :: 0 <= i < |es| ==> r[i] == es[i].1
  {
    if es == [] then [] else [es[0].1] + Values(es[1..])
  }
}

=== FILE: money_maps.dfy ===
/**
 * String-keyed running totals, as the dashboard keeps them in plain objects
 * (`m[k] = (m[k] || 0) + amount`), and the sum of all the totals such a map holds.
 */
module MoneyMaps {

  /** The total a key holds, 0 when it holds none (`m[k] || 0`). */
  function Lookup(m: map<string, real>, k: string): real {
    if k in m then m[k] else 0.0
  }

  /**
   * The property names every plain `{}` inherits from `Object.prototype`. A
   * read of one of them from an object that has not set it finds the inherited
   * member, not `undefined`.
   */
  const InheritedNames: set<string> := {
    "constructor", "__proto__", "hasOwnProperty", "isPrototypeOf", "propertyIsEnumerable",
    "toLocaleString", "toString", "valueOf",
    "__defineGetter__", "__defineSetter__", "__lookupGetter__", "__lookupSetter__"}

  /** `m[k] = (m[k] || 0) + amount`, as a map from keys to numbers is meant to behave. */
  function AddTo(m: map<string, real>, k: string, amount: real): (r: map<string, real>)
    ensures r.Keys == m.Keys + {k}
    ensures r[k] == Lookup(m, k) + amount
    ensures forall j :: j in m && j != k ==> r[j] == m[j]
  {
    m[k := Lookup(m, k) + amount]
  }

  /** The sum of the totals `m` holds under the keys `ks`, taken in some order. */
  ghost function SumOver(m: map<string, real>, ks: set<string>): real
    requires ks <= m.Keys
    decreases ks
  {
    if ks == {} then 0.0 else
      var k :| k in ks;
      m[k] + SumOver(m, ks - {k})
  }

  /** The sum of all the totals in `m`. */
  ghost function SumValues(m: map<string, real>): real {
    SumOver(m, m.Keys)
  }

  /** The sum does not depend on the order the keys are taken in: any key may go first. */
  lemma {:induction false} SumOverRemove(m: map<string, real>, ks: set<string>, k: string)
    requires ks <= m.Keys && k in ks
    ensures SumOver(m, ks) == m[k] + SumOver(m, ks - {k})
    decreases ks
  {
    var j :| j in ks && SumOver(m, ks) == m[j] + SumOver(m, ks - {j});
    if j != k {
      SumOverRemove(m, ks - {j}, k);
      SumOverRemove(m, ks - {k}, j);
      assert ks - {j} - {k} == ks - {k} - {j};
    }
  }

  /** The sum over `ks` reads only the totals under `ks`. */
  lemma {:induction false} SumOverFrame(m1: map<string, real>, m2: map<string, real>, ks: set<string>)
    requires ks <= m1.Keys && ks <= m2.Keys
    requires forall k :: k in ks ==> m1[k] == m2[k]
    ensures SumOver(m1, ks) == SumOver(m2, ks)
    decreases ks
  {
    if ks != {} {
      var k :| k in ks;
      SumOverRemove(m1, ks, k);
      SumOverRemove(m2, ks, k);
      SumOverFrame(m1, m2, ks - {k});
    }
  }

  /** The empty map sums to 0. */
  lemma SumValuesEmpty()
    ensures SumValues(map[]) == 0.0
  {
    var e: map<string, real> := map[];
    assert e.Keys == {};
  }

  /**
   * `m[k] = (m[k] || 0) + amount` on a plain object, as written, for the key
   * `__proto__`: the read finds `Object.prototype`, and assigning a number to
   * `__proto__` is ignored, so the object keeps the totals it had. Other keys
   * behave as `AddTo`; the other inherited names turn the total into a string,
   * which this map of numbers does not represent.
   */
  function AddToAsWritten(m: map<string, real>, k: string, amount: real): map<string, real> {
    if k == "__proto__" then m else AddTo(m, k, amount)
  }

  /**
   * A record filed under `__proto__` loses its amount from the totals as
   * written, while `AddTo` accounts for it.
   */
  lemma ProtoKeyDropsAmount(m: map<string, real>, amount: real)
    requires amount != 0.0
    ensures SumValues(AddToAsWritten(m, "__proto__", amount)) != SumValues(m) + amount
    ensures SumValues(AddTo(m, "__proto__", amount)) == SumValues(m) + amount
  {
    SumValuesAddTo(m, "__proto__", amount);
  }

  /** Adding an amount under one key adds it to the sum of all the totals. */
  lemma SumValuesAddTo(m: map<string, real>, k: string, amount: real)
    ensures SumValues(AddTo(m, k, amount)) == SumValues(m) + amount
  {
    var r := AddTo(m, k, amount);
    if k in m {
      assert r.Keys == m.Keys;
      SumOverRemove(r, r.Keys, k);
      SumOverRemove(m, m.Keys, k);
      SumOverFrame(r, m, m.Keys - {k});
    } else {
      assert r.Keys - {k} == m.Keys;
      SumOverRemove(r, r.Keys, k);
      SumOverFrame(r, m, m.Keys);
    }
  }
}

=== FILE: numbers.dfy ===
/**
 * The JavaScript string-to-number conversions the forms and list filters use:
 * `Number(text)`, `parseFloat(text)` and `parseInt(text)`, on decimal text.
 */
module JsNumber {
  import opened Wrappers
  import opened Text

  /** A JavaScript number as the front end meets it: `NaN` or a finite value. */
  datatype Num = NaN | Finite(value: real)

  predicate IsDigit(c: char) {
    '0' <= c <= '9'
  }

  predicate AllDigits(s: string) {
    forall i :: 0 <= i < |s| ==> IsDigit(s[i])
  }

  function DigitValue(c: char): nat
    requires IsDigit(c)
  {
    c as int - '0' as int
  }

  function Pow10(k: nat): (p: nat)
    ensures p >= 1
  {
    if k == 0 then 1 else 10 * Pow10(k - 1)
  }

  /** The value of a string of decimal digits, most significant first. */
  function DigitsValue(s: string): nat
    requires AllDigits(s)
  {
    if s == [] then 0 else 10 * DigitsValue(s[..|s| - 1]) + DigitValue(s[|s| - 1])
  }

  /** The length of the run of digits that starts `s`. */
  function DigitRun(s: string): (n: nat)
    ensures n <= |s|
    ensures AllDigits(s[..n])
    ensures n < |s| ==> !IsDigit(s[n])
  {
    if s == [] || !IsDigit(s[0]) then 0
    else
      var n := DigitRun(s[1..]);
      assert s[..n + 1] == [s[0]] + s[1..][..n];
      n + 1
  }

  /** A literal read from the front of a string: how many characters it took, and its value. */
  datatype Scan = Scan(len: nat, value: real)

  /**
   * The longest prefix of `s` that is an unsigned decimal literal:
   * `digits`, `digits.`, `digits.digits` or `.digits`.
   */
  function ScanUnsigned(s: string): (r: Option<Scan>)
    ensures r.Some? ==> 0 < r.value.len <= |s|
  {
    var i := DigitRun(s);
    if i < |s| && s[i] == '.' then
      var f := DigitRun(s[i + 1..]);
      if i == 0 && f == 0 then None
      else
        var whole := DigitsValue(s[..i]) as real;
        var frac := DigitsValue(s[i + 1..][..f]) as real / Pow10(f) as real;
        Some(Scan(i + 1 + f, whole + frac))
    else if i == 0 then None
    else Some(Scan(i, DigitsValue(s[..i]) as real))
  }

  /** An unsigned literal with an optional leading `+` or `-`. */
  function ScanSigned(s: string): (r: Option<Scan>)
    ensures r.Some? ==> 0 < r.value.len <= |s|
  {
    if s != [] && (s[0] == '+' || s[0] == '-') then
      match ScanUnsigned(s[1..])
      case None => None
      case Some(sc) => Some(Scan(sc.len + 1, if s[0] == '-' then -sc.value else sc.value))
    else ScanUnsigned(s)
  }

  /** `Number(s)`: blank text is 0; otherwise the trimmed text must be one literal. */
  function ToNumber(s: string): Num {
    var t := Trim(s);
    if t == [] then Finite(0.0)
    else
      match ScanSigned(t)
      case Some(sc) => if sc.len == |t| then Finite(sc.value) else NaN
      case None => NaN
  }

  /** `parseFloat(s)`: the longest literal after leading whitespace; trailing text is ignored. */
  function ParseFloat(s: string): Num {
    match ScanSigned(TrimStart(s))
    case Some(sc) => Finite(sc.value)
    case None => NaN
  }

  /** `parseInt(s)` on decimal text: an optionally signed run of digits after leading whitespace. */
  function ParseInt(s: string): Num {
    var t := TrimStart(s);
    var signed := t != [] && (t[0] == '+' || t[0] == '-');
    var u := if signed then t[1..] else t;
    var n := DigitRun(u);
    if n == 0 then NaN
    else
      var v := DigitsValue(u[..n]) as real;
      Finite(if signed && t[0] == '-' then -v else v)
  }

  /** `String(n)` for a natural number: its decimal digits. */
  function NatText(n: nat): (s: string)
    ensures s != [] && AllDigits(s)
  {
    if n < 10 then ['0' + n as char]
    else NatText(n / 10) + ['0' + (n % 10) as char]
  }

  lemma {:induction false} NatTextValue(n: nat)
    ensures DigitsValue(NatText(n)) == n
  {
    var s := NatText(n);
    if n >= 10 {
      NatTextValue(n / 10);
      assert s[..|s| - 1] == NatText(n / 10);
    }
  }

  lemma {:induction false} DigitRunOfDigits(s: string)
    requires AllDigits(s)
    ensures DigitRun(s) == |s|
  {
    if s != [] {
      DigitRunOfDigits(s[1..]);
    }
  }

  /** `Number(String(n)) === n`: the text the page renders for a natural number reads back as that number. */
  lemma NumberOfNatText(n: nat)
    ensures ToNumber(NatText(n)) == Finite(n as real)
  {
    var s := NatText(n);
    TrimOfUnpadded(s);
    NatTextValue(n);
    DigitRunOfDigits(s);
    assert s[..|s|] == s;
    assert !(s[0] == '+' || s[0] == '-');
    assert ScanSigned(s) == ScanUnsigned(s);
    assert ScanUnsigned(s) == Some(Scan(|s|, n as real));
  }

  /** `parseInt` reads a plain run of digits as its value. */
  lemma ParseIntOfDigits(s: string)
    requires s != [] && AllDigits(s)
    ensures ParseInt(s) == Finite(DigitsValue(s) as real)
  {
    DigitRunOfDigits(s);
    assert !IsSpace(s[0]);
    assert TrimStart(s) == s;
    assert !(s[0] == '+' || s[0] == '-');
    assert s[..|s|] == s;
  }

  /** `parseInt(String(n)) === n`. */
  lemma ParseIntOfNatText(n: nat)
    ensures ParseInt(NatText(n)) == Finite(n as real)
  {
    ParseIntOfDigits(NatText(n));
    NatTextValue(n);
  }

  /**
   * On text that `Number` accepts and that is not blank, `parseFloat` reads the
   * same value: both read one literal after the leading whitespace.
   */
  lemma ParseFloatAgreesWithNumber(s: string)
    requires ToNumber(s).Finite? && !Blank(s)
    ensures ParseFloat(s) == ToNumber(s)
  {
    TrimEmptyIffBlank(s);
    var t := TrimStart(s);
    var u := Trim(s);
    assert u == t[..|u|];
    var sc := ScanSigned(u).value;
    ScanPrefix(u, t);
  }

  /** A literal that fills a prefix of `t` is also the literal read from the front of `t`. */
  lemma ScanPrefix(u: string, t: string)
    requires u <= t && ScanSigned(u).Some? && ScanSigned(u).value.len == |u|
    requires |u| < |t| ==> IsSpace(t[|u|])
    ensures ScanSigned(t) == ScanSigned(u)
  {
    if u != [] && (u[0] == '+' || u[0] == '-') {
      UnsignedPrefix(u[1..], t[1..]);
    } else {
      UnsignedPrefix(u, t);
    }
  }

  lemma DigitRunPrefix(u: string, t: string)
    requires u <= t && DigitRun(u) == |u|
    requires |u| < |t| ==> !IsDigit(t[|u|])
    ensures DigitRun(t) == |u|
  {
    if u != [] {
      DigitRunPrefix(u[1..], t[1..]);
    }
  }

  lemma UnsignedPrefix(u: string, t: string)
    requires u <= t && ScanUnsigned(u).Some? && ScanUnsigned(u).value.len == |u|
    requires |u| < |t| ==> IsSpace(t[|u|])
    ensures ScanUnsigned(t) == ScanUnsigned(u)
  {
    var i := DigitRun(u);
    if i < |u| && u[i] == '.' {
      var f := DigitRun(u[i + 1..]);
      assert i + 1 + f == |u|;
      assert DigitRun(t) == i by {
        DigitRunPrefix(u[..i], t);
        assert u[..i] <= t;
      }
      DigitRunPrefix(u[i + 1..], t[i + 1..]);
      assert t[..i] == u[..i];
      assert t[i + 1..][..f] == u[i + 1..][..f];
    } else {
      assert i == |u|;
      DigitRunPrefix(u, t);
      assert t[..i] == u[..i];
    }
  }

  /** `parseFloat` of a text that starts with no sign, digit, point or space is `NaN`. */
  lemma ParseFloatOfWord(s: string)
    requires s != [] && !IsSpace(s[0]) && !IsDigit(s[0]) && s[0] != '+' && s[0] != '-' && s[0] != '.'
    ensures ParseFloat(s) == NaN
  {
    assert TrimStart(s) == s;
    assert DigitRun(s) == 0;
  }
}

=== FILE: pagination.dfy ===
/**
 * Fixed-size pages over a filtered list, as both transaction lists compute
 * them: `Math.ceil(n / ITEMS_PER_PAGE)` pages, page `p` the slice
 * `[(p - 1) * 5, p * 5)`, and `changePage` ignoring out-of-range requests.
 */
module Pagination {

  const ItemsPerPage: nat := 5

  /** `Math.ceil(n / ITEMS_PER_PAGE)`. */
  function PageCount(n: nat): (c: nat)
    ensures c * ItemsPerPage >= n
    ensures c > 0 ==> (c - 1) * ItemsPerPage < n
  {
    (n + ItemsPerPage - 1) / ItemsPerPage
  }

  /** `Array.prototype.slice` resolves a negative index from the end and clamps to the length. */
  function SliceIndex(len: nat, i: int): (r: nat)
    ensures r <= len
  {
    if i < 0 then (if len + i < 0 then 0 else len + i)
    else if i > len then len else i
  }

  /** `xs.slice(start, end)`. */
  function Slice<T>(xs: seq<T>, start: int, end: int): seq<T> {
    var from := SliceIndex(|xs|, start);
    var to := SliceIndex(|xs|, end);
    if from < to then xs[from..to] else []
  }

  /** The items shown on page `page` (1-based). */
  function Page<T>(xs: seq<T>, page: int): seq<T> {
    Slice(xs, (page - 1) * ItemsPerPage, page * ItemsPerPage)
  }

  function Min(a: int, b: int): int { if a < b then a else b }

  /** A page at or after the first is the run of at most five items starting at its offset. */
  lemma PageContents<T>(xs: seq<T>, page: int)
    requires page >= 1
    ensures Page(xs, page) == xs[Min((page - 1) * ItemsPerPage, |xs|)..Min(page * ItemsPerPage, |xs|)]
    ensures |Page(xs, page)| <= ItemsPerPage
  {
  }

  /**
   * Page `page` has something to show exactly when `page` is between 1 and the
   * page count. (A negative page would be read from the end of the list by
   * `slice`; `changePage` never lets one through.)
   */
  lemma PageNonEmptyIff<T>(xs: seq<T>, page: int)
    requires page >= 0
    ensures Page(xs, page) != [] <==> 1 <= page <= PageCount(|xs|)
  {
    var n := |xs|;
    if 1 <= page <= PageCount(n) {
      assert (page - 1) * ItemsPerPage < n;
    } else if page < 1 {
      assert page * ItemsPerPage == 0;
    } else {
      assert (page - 1) * ItemsPerPage >= PageCount(n) * ItemsPerPage;
    }
  }

  /** Pages `from`..`last`, one after the other. */
  function PagesFrom<T>(xs: seq<T>, from: nat, last: nat): seq<T>
    decreases last - from
  {
    if from > last || from == 0 then [] else Page(xs, from) + PagesFrom(xs, from + 1, last)
  }

  /** What pages `from`..`PageCount` show together is everything from page `from`'s offset on. */
  lemma {:induction false} PagesFromAreSuffix<T>(xs: seq<T>, from: nat)
    requires 1 <= from
    ensures PagesFrom(xs, from, PageCount(|xs|)) == xs[Min((from - 1) * ItemsPerPage, |xs|)..]
    decreases PageCount(|xs|) - from
  {
    var n := |xs|;
    if from > PageCount(n) {
      assert (from - 1) * ItemsPerPage >= PageCount(n) * ItemsPerPage;
    } else {
      PageContents(xs, from);
      PagesFromAreSuffix(xs, from + 1);
      var a := Min((from - 1) * ItemsPerPage, n);
      var b := Min(from * ItemsPerPage, n);
      assert xs[a..] == xs[a..b] + xs[b..];
    }
  }

  /** Reading pages 1 to `pageCount` in turn shows the whole list once, in order. */
  lemma PagesReconstruct<T>(xs: seq<T>)
    ensures PagesFrom(xs, 1, PageCount(|xs|)) == xs
  {
    PagesFromAreSuffix(xs, 1);
  }

  /** `changePage(newPage)`: a request outside `[1, pageCount]` leaves the current page. */
  function ChangePage(current: int, requested: int, pageCount: nat): int {
    if requested < 1 || requested > pageCount then current else requested
  }

  /** What a list view holds: the filtered items and the current page. */
  datatype ListView<T> = ListView(filtered: seq<T>, currentPage: int)

  /** The current page is 1, or one that exists. */
  predicate ValidView<T>(v: ListView<T>) {
    v.currentPage == 1 || 1 <= v.currentPage <= PageCount(|v.filtered|)
  }

  /** A new filtered list is shown from page 1. */
  function ShowFiltered<T>(filtered: seq<T>): (v: ListView<T>)
    ensures ValidView(v) && v.filtered == filtered
    ensures Visible(v) == filtered[..Min(ItemsPerPage, |filtered|)]
  {
    ListView(filtered, 1)
  }

  /** The items on the current page: `paginatedExpenses` / `paginatedIncomes`. */
  function Visible<T>(v: ListView<T>): seq<T> {
    Page(v.filtered, v.currentPage)
  }

  /** `changePage` on a view. */
  function Navigate<T>(v: ListView<T>, requested: int): ListView<T> {
    v.(currentPage := ChangePage(v.currentPage, requested, PageCount(|v.filtered|)))
  }

  /**
   * A request is honoured exactly when the page it names has items; any other
   * request (zero, negative, past the last page) changes nothing. Either way
   * the view stays valid and shows a non-empty page whenever the list is non-empty.
   */
  lemma NavigateSpec<T>(v: ListView<T>, requested: int)
    requires ValidView(v)
    ensures var w := Navigate(v, requested);
      && ValidView(w)
      && w.filtered == v.filtered
      && (requested >= 0 && Page(v.filtered, requested) != [] ==> w.currentPage == requested)
      && (requested < 0 || Page(v.filtered, requested) == [] ==> w == v)
      && (v.filtered != [] ==> Visible(w) != [])
  {
    var w := Navigate(v, requested);
    if requested >= 0 {
      PageNonEmptyIff(v.filtered, requested);
    }
    PageNonEmptyIff(v.filtered, v.currentPage);
    PageNonEmptyIff(v.filtered, w.currentPage);
  }

  /** On an empty list every request is refused. */
  lemma NavigateEmpty<T>(v: ListView<T>, requested: int)
    requires v.filtered == []
    ensures Navigate(v, requested) == v
  {
  }
}

=== FILE: records.dfy ===
/**
 * The records the front end receives from the REST API, as JSON objects.
 * Absent or `null` members are `None`; amounts are exact reals.
 */
module Records {
  import opened Wrappers

  /** An income or expense category: `{ id, name }`. */
  datatype Category = Category(id: int, name: string)

  /** An income of one event. */
  datatype Income = Income(
    id: int,
    sourceName: Option<string>,
    amount: real,
    date: string,
    description: Option<string>,
    category: Option<Category>)

  /** An expense of one event. */
  datatype Expense = Expense(
    id: int,
    amount: real,
    date: string,
    description: Option<string>,
    category: Option<Category>)

  /** An event as listed by the API (the fields the views read). */
  datatype Event = Event(id: int, name: string, date: string)

  function IncomeAmount(i: Income): real { i.amount }
  function ExpenseAmount(e: Expense): real { e.amount }
}

=== FILE: report.dfy ===
/**
 * `ReportDashboard`: one summary per event over all its records, the date
 * filter over the summaries, and the rows of the spreadsheet export.
 */
module Report {
  import opened Wrappers
  import opened Text
  import opened Records
  import opened Seqs

  /** `{ id, name, date, totalIncome, totalExpense, balance }`. */
  datatype EventSummary = EventSummary(
    id: int, name: string, date: string,
    totalIncome: real, totalExpense: real, balance: real)

  /** An event with the incomes and expenses fetched for it. */
  datatype EventData = EventData(event: Event, incomes: seq<Income>, expenses: seq<Expense>)

  datatype ReportState = ReportState(
    events: seq<EventSummary>,
    filtered: seq<EventSummary>,
    startDate: string,
    endDate: string)

  /** The summary of one event: sums over all its records, with no date filter. */
  function Summarize(d: EventData): (s: EventSummary)
    ensures s.id == d.event.id && s.name == d.event.name && s.date == d.event.date
    ensures s.totalIncome == Sum(d.incomes, IncomeAmount)
    ensures s.totalExpense == Sum(d.expenses, ExpenseAmount)
    ensures s.balance == s.totalIncome - s.totalExpense
  {
    var ti := SumFrom(0.0, d.incomes, IncomeAmount);
    var te := SumFrom(0.0, d.expenses, ExpenseAmount);
    EventSummary(d.event.id, d.event.name, d.event.date, ti, te, ti - te)
  }

  function SummarizeAll(ds: seq<EventData>): (r: seq<EventSummary>)
    ensures |r| == |ds|
    ensures forall k :: 0 <= k < |ds| ==> r[k] == Summarize(ds[k])
  {
    if ds == [] then [] else [Summarize(ds[0])] + SummarizeAll(ds[1..])
  }

  /**
   * `loadData`: `None` when any request fails, which rejects `Promise.all`
   * before any state is set. Otherwise both lists hold one summary per event.
   */
  function LoadData(s: ReportState, fetched: Option<seq<EventData>>): (r: ReportState)
    ensures fetched.None? ==> r == s
    ensures fetched.Some? ==> r.filtered == r.events && |r.events| == |fetched.value|
    ensures fetched.Some? ==> forall k :: 0 <= k < |r.events| ==>
      && r.events[k].id == fetched.value[k].event.id
      && r.events[k].name == fetched.value[k].event.name
      && r.events[k].date == fetched.value[k].event.date
      && r.events[k].totalIncome == Sum(fetched.value[k].incomes, IncomeAmount)
      && r.events[k].totalExpense == Sum(fetched.value[k].expenses, ExpenseAmount)
      && r.events[k].balance == r.events[k].totalIncome - r.events[k].totalExpense
    ensures r.startDate == s.startDate && r.endDate == s.endDate
  {
    match fetched
    case None => s
    case Some(ds) =>
      var summaries := SummarizeAll(ds);
      s.(events := summaries, filtered := summaries)
  }

  /** `evt.date >= startDate && evt.date <= endDate`. */
  predicate Within(start: string, end: string, e: EventSummary) {
    LexLe(start, e.date) && LexLe(e.date, end)
  }

  /** `filterByDate`: does nothing unless both dates are set; filters the full list, not the last result. */
  function FilterByDate(s: ReportState): (r: ReportState)
    ensures s.startDate == "" || s.endDate == "" ==> r == s
    ensures r.events == s.events && r.startDate == s.startDate && r.endDate == s.endDate
    ensures s.startDate != "" && s.endDate != "" ==>
      && IsSubsequence(r.filtered, s.events)
      && forall e :: e in r.filtered <==> e in s.events && Within(s.startDate, s.endDate, e)
  {
    if s.startDate == "" || s.endDate == "" then s
    else
      var p := (e: EventSummary) => Within(s.startDate, s.endDate, e);
      FilterIsSubsequence(s.events, p);
      s.(filtered := Filter(s.events, p))
  }

  /** The date filter forgets the previous result, so applying it twice is applying it once. */
  lemma FilterByDateIdempotent(s: ReportState, previous: seq<EventSummary>)
    ensures s.startDate != "" && s.endDate != "" ==>
      FilterByDate(s.(filtered := previous)).filtered == FilterByDate(s).filtered
    ensures FilterByDate(FilterByDate(s)) == FilterByDate(s)
  {
  }

  /** One line of the spreadsheet: event, date, income, expense, balance. */
  datatype ReportRow = ReportRow(event: string, date: string, income: real, expense: real, balance: real)

  const ReportHeader: seq<string> := ["Event", "Date", "Income", "Expense", "Balance"]

  /** The sheet `exportToExcel` writes: the header and the rows. */
  datatype Sheet = Sheet(header: seq<string>, rows: seq<ReportRow>)

  function RowOf(e: EventSummary): ReportRow {
    ReportRow(e.name, e.date, e.totalIncome, e.totalExpense, e.balance)
  }

  /** `exportToExcel`: nothing to write for an empty list (the alert); otherwise one row per event shown, in order. */
  function ExportSheet(filtered: seq<EventSummary>): (r: Option<Sheet>)
    ensures r.None? <==> filtered == []
    ensures r.Some? ==> r.value.header == ReportHeader && |r.value.rows| == |filtered|
    ensures r.Some? ==> forall k :: 0 <= k < |filtered| ==>
      r.value.rows[k].event == filtered[k].name && r.value.rows[k].date == filtered[k].date
      && r.value.rows[k].income == filtered[k].totalIncome
      && r.value.rows[k].expense == filtered[k].totalExpense
      && r.value.rows[k].balance == filtered[k].balance
  {
    if |filtered| == 0 then None
    else Some(Sheet(ReportHeader, seq(|filtered|, k requires 0 <= k < |filtered| => RowOf(filtered[k]))))
  }

  /** After a load, every exported row balances: its balance is its income less its expense. */
  lemma ExportedRowsBalance(s: ReportState, ds: seq<EventData>)
    ensures var sheet := ExportSheet(FilterByDate(LoadData(s, Some(ds))).filtered);
      sheet.Some? ==> forall k :: 0 <= k < |sheet.value.rows| ==>
        sheet.value.rows[k].balance == sheet.value.rows[k].income - sheet.value.rows[k].expense
  {
    var loaded := LoadData(s, Some(ds));
    var shown := FilterByDate(loaded).filtered;
    assert forall e :: e in shown ==> e in loaded.events;
    forall k | 0 <= k < |shown|
      ensures shown[k].balance == shown[k].totalIncome - shown[k].totalExpense
    {
      assert shown[k] in loaded.events;
    }
  }
}

=== FILE: seqs.dfy ===
/** `Array.prototype.filter` and numeric `reduce`, with the facts the rest of the model needs about them. */
module Seqs {

  /** `xs.filter(p)`. */
  function Filter<T(==)>(xs: seq<T>, p: T -> bool): (r: seq<T>)
    ensures |r| <= |xs|
    ensures forall x :: x in r ==> x in xs && p(x)
    ensures forall x :: x in xs && p(x) ==> x in r
  {
    if xs == [] then []
    else (if p(xs[0]) then [xs[0]] else []) + Filter(xs[1..], p)
  }

  /** `filter` keeps every element that passes as many times as it occurs, and no other. */
  lemma {:induction false} FilterCounts<T>(xs: seq<T>, p: T -> bool)
    ensures forall x :: x in xs ==> multiset(Filter(xs, p))[x] == if p(x) then multiset(xs)[x] else 0
    ensures forall x :: x !in xs ==> multiset(Filter(xs, p))[x] == 0
  {
    if xs != [] {
      FilterCounts(xs[1..], p);
      assert xs == [xs[0]] + xs[1..];
      assert multiset(xs) == multiset([xs[0]]) + multiset(xs[1..]);
    }
  }

  /** `idx` picks out `a` from `b` at strictly increasing positions. */
  predicate IsEmbedding<T(==)>(a: seq<T>, b: seq<T>, idx: seq<int>) {
    && |idx| == |a|
    && (forall k :: 0 <= k < |idx| ==> 0 <= idx[k] < |b| && a[k] == b[idx[k]])
    && (forall k, l :: 0 <= k < l < |idx| ==> idx[k] < idx[l])
  }

  /** `a` is an order-preserving subsequence of `b`. */
  ghost predicate IsSubsequence<T>(a: seq<T>, b: seq<T>) {
    exists idx :: IsEmbedding(a, b, idx)
  }

  /** The positions at which `Filter` takes its elements. */
  lemma {:induction false} FilterEmbedding<T>(xs: seq<T>, p: T -> bool) returns (idx: seq<int>)
    ensures IsEmbedding(Filter(xs, p), xs, idx)
    ensures forall k :: 0 <= k < |idx| ==> p(xs[idx[k]])
  {
    if xs == [] {
      idx := [];
    } else {
      var rest := FilterEmbedding(xs[1..], p);
      assert xs == [xs[0]] + xs[1..];
      if p(xs[0]) {
        assert Filter(xs, p) == [xs[0]] + Filter(xs[1..], p);
        idx := EmbedKeep(xs[0], Filter(xs[1..], p), xs[1..], rest, p);
      } else {
        assert Filter(xs, p) == Filter(xs[1..], p);
        idx := EmbedSkip(xs[0], Filter(xs[1..], p), xs[1..], rest, p);
      }
    }
  }

  /** An embedding extends by a kept first element. */
  lemma EmbedKeep<T>(x: T, a: seq<T>, b: seq<T>, rest: seq<int>, p: T -> bool) returns (idx: seq<int>)
    requires IsEmbedding(a, b, rest) && p(x)
    requires forall k :: 0 <= k < |rest| ==> p(b[rest[k]])
    ensures IsEmbedding([x] + a, [x] + b, idx)
    ensures forall k :: 0 <= k < |idx| ==> p(([x] + b)[idx[k]])
  {
    var shifted := Shift(rest);
    idx := [0] + shifted;
    forall k | 0 <= k < |idx|
      ensures 0 <= idx[k] < |[x] + b| && ([x] + a)[k] == ([x] + b)[idx[k]] && p(([x] + b)[idx[k]])
    {
      if k > 0 {
        assert idx[k] == rest[k - 1] + 1 && ([x] + a)[k] == a[k - 1];
      }
    }
    forall k, l | 0 <= k < l < |idx|
      ensures idx[k] < idx[l]
    {
      if k > 0 {
        assert idx[k] == rest[k - 1] + 1 && idx[l] == rest[l - 1] + 1;
      }
    }
  }

  /** An embedding survives a skipped first element. */
  lemma EmbedSkip<T>(x: T, a: seq<T>, b: seq<T>, rest: seq<int>, p: T -> bool) returns (idx: seq<int>)
    requires IsEmbedding(a, b, rest)
    requires forall k :: 0 <= k < |rest| ==> p(b[rest[k]])
    ensures IsEmbedding(a, [x] + b, idx)
    ensures forall k :: 0 <= k < |idx| ==> p(([x] + b)[idx[k]])
  {
    idx := Shift(rest);
    forall k | 0 <= k < |idx|
      ensures 0 <= idx[k] < |[x] + b| && a[k] == ([x] + b)[idx[k]] && p(([x] + b)[idx[k]])
    {
      assert idx[k] == rest[k] + 1;
    }
  }

  function Shift(idx: seq<int>): (r: seq<int>)
    ensures |r| == |idx|
    ensures forall k :: 0 <= k < |idx| ==> r[k] == idx[k] + 1
  {
    if idx == [] then [] else [idx[0] + 1] + Shift(idx[1..])
  }

  /** Filtering keeps the relative order of what it keeps. */
  lemma FilterIsSubsequence<T>(xs: seq<T>, p: T -> bool)
    ensures IsSubsequence(Filter(xs, p), xs)
  {
    var idx := FilterEmbedding(xs, p);
  }

  /** Filtering by `p` and then by `q` is filtering once by their conjunction. */
  lemma {:induction false} FilterFuse<T>(xs: seq<T>, p: T -> bool, q: T -> bool)
    ensures Filter(Filter(xs, p), q) == Filter(xs, x => p(x) && q(x))
  {
    if xs != [] {
      FilterFuse(xs[1..], p, q);
      FilterAppend((if p(xs[0]) then [xs[0]] else []), Filter(xs[1..], p), q);
    }
  }

  /** `FilterFuse` with the conjunction given by name. */
  lemma FilterFuseInto<T>(xs: seq<T>, p: T -> bool, q: T -> bool, r: T -> bool)
    requires forall x :: r(x) == (p(x) && q(x))
    ensures Filter(Filter(xs, p), q) == Filter(xs, r)
  {
    FilterFuse(xs, p, q);
    FilterCongruent(xs, x => p(x) && q(x), r);
  }

  lemma {:induction false} FilterAppend<T>(a: seq<T>, b: seq<T>, p: T -> bool)
    ensures Filter(a + b, p) == Filter(a, p) + Filter(b, p)
  {
    if a != [] {
      FilterAppend(a[1..], b, p);
      assert (a + b)[0] == a[0];
      assert (a + b)[1..] == a[1..] + b;
    } else {
      assert a + b == b;
    }
  }

  /** A filter every element passes is the identity. */
  lemma {:induction false} FilterKeepsAll<T>(xs: seq<T>, p: T -> bool)
    requires forall k :: 0 <= k < |xs| ==> p(xs[k])
    ensures Filter(xs, p) == xs
  {
    if xs != [] {
      FilterKeepsAll(xs[1..], p);
    }
  }

  /** Filters with the same verdict on every element give the same result. */
  lemma {:induction false} FilterCongruent<T>(xs: seq<T>, p: T -> bool, q: T -> bool)
    requires forall k :: 0 <= k < |xs| ==> p(xs[k]) == q(xs[k])
    ensures Filter(xs, p) == Filter(xs, q)
  {
    if xs != [] {
      FilterCongruent(xs[1..], p, q);
    }
  }

  /** `xs.reduce((acc, x) => acc + f(x), 0)`, stated as a sum. */
  function Sum<T>(xs: seq<T>, f: T -> real): real {
    if xs == [] then 0.0 else f(xs[0]) + Sum(xs[1..], f)
  }

  lemma {:induction false} SumAppend<T>(a: seq<T>, b: seq<T>, f: T -> real)
    ensures Sum(a + b, f) == Sum(a, f) + Sum(b, f)
  {
    if a != [] {
      SumAppend(a[1..], b, f);
      assert (a + b)[0] == a[0];
      assert (a + b)[1..] == a[1..] + b;
    } else {
      assert a + b == b;
    }
  }

  /** The left-to-right running total, as `reduce` computes it. */
  function SumFrom<T>(acc: real, xs: seq<T>, f: T -> real): (r: real)
    ensures r == acc + Sum(xs, f)
    decreases xs
  {
    if xs == [] then acc else SumFrom(acc + f(xs[0]), xs[1..], f)
  }
}

=== FILE: text.dfy ===
/**
 * The JavaScript string operations the front end relies on, over `seq<char>`:
 * whitespace and `trim`, ASCII `toLowerCase`, `includes`, the `<`/`<=`
 * comparison of two strings, and `split(sep)[0]`.
 */
module Text {

  /** JavaScript's WhiteSpace and LineTerminator characters: what `trim` strips and `\s` matches. */
  predicate IsSpace(c: char) {
    || c == ' ' || c == '\t' || c == '\n' || c == '\r' || c == '\U{000B}' || c == '\U{000C}'
    || c == '\U{00A0}' || c == '\U{1680}' || ('\U{2000}' <= c <= '\U{200A}')
    || c == '\U{2028}' || c == '\U{2029}' || c == '\U{202F}' || c == '\U{205F}'
    || c == '\U{3000}' || c == '\U{FEFF}'
  }

  /** Every character is whitespace (true of the empty string). */
  predicate Blank(s: string) {
    forall i :: 0 <= i < |s| ==> IsSpace(s[i])
  }

  /** `s` with its leading whitespace removed. */
  function TrimStart(s: string): (r: string)
    ensures |r| <= |s| && r == s[|s| - |r|..]
    ensures Blank(s[..|s| - |r|])
    ensures r == [] || !IsSpace(r[0])
  {
    if s == [] || !IsSpace(s[0]) then s
    else
      var r := TrimStart(s[1..]);
      assert s[1..][..|s[1..]| - |r|] == s[1..|s| - |r|];
      r
  }

  /** `s` with its trailing whitespace removed. */
  function TrimEnd(s: string): (r: string)
    ensures |r| <= |s| && r == s[..|r|]
    ensures Blank(s[|r|..])
    ensures r == [] || !IsSpace(r[|r| - 1])
  {
    if s == [] || !IsSpace(s[|s| - 1]) then s
    else
      var r := TrimEnd(s[..|s| - 1]);
      assert s[..|s| - 1][|r|..] == s[|r|..|s| - 1];
      r
  }

  /** `String.prototype.trim`. */
  function Trim(s: string): string {
    TrimEnd(TrimStart(s))
  }

  /** The guard `if (text.trim())` holds exactly when the text has a non-whitespace character. */
  lemma TrimEmptyIffBlank(s: string)
    ensures Trim(s) == [] <==> Blank(s)
  {
    var t := TrimStart(s);
    if Trim(s) == [] {
      assert t[0..] == t;
      assert t == [];
      forall i | 0 <= i < |s|
        ensures IsSpace(s[i])
      {
        assert s[..|s| - |t|][i] == s[i];
      }
    } else {
      var r := Trim(s);
      var k := |s| - |t|;
      assert t[0] == s[k];
      assert t[|r| - 1] == s[k + |r| - 1];
      if k + |r| - 1 > k {
        assert !IsSpace(r[|r| - 1]);
      }
      assert !IsSpace(s[k + |r| - 1]);
    }
  }

  /** ASCII `toLowerCase` on one character. */
  function LowerChar(c: char): (r: char)
    ensures 'A' <= c <= 'Z' ==> 'a' <= r <= 'z' && r as int - c as int == 32
    ensures !('A' <= c <= 'Z') ==> r == c
  {
    if 'A' <= c <= 'Z' then (c as int + 32) as char else c
  }

  /** ASCII `String.prototype.toLowerCase`. */
  function Lower(s: string): (r: string)
    ensures |r| == |s|
    ensures forall i :: 0 <= i < |s| ==> r[i] == LowerChar(s[i])
  {
    if s == [] then [] else [LowerChar(s[0])] + Lower(s[1..])
  }

  /** Lowering is idempotent: a lowered string has no upper-case ASCII letter left. */
  lemma LowerIdempotent(s: string)
    ensures Lower(Lower(s)) == Lower(s)
    ensures forall i :: 0 <= i < |s| ==> !('A' <= Lower(s)[i] <= 'Z')
  {
  }

  /** A string with no upper-case ASCII letter lowers to itself. */
  lemma LowerKeeps(s: string)
    requires forall i :: 0 <= i < |s| ==> !('A' <= s[i] <= 'Z')
    ensures Lower(s) == s
  {
  }

  /** A prefix is always found. */
  lemma IncludesPrefix(hay: string, needle: string)
    requires needle <= hay
    ensures Includes(hay, needle)
  {
    assert OccursAt(hay, needle, 0);
  }

  /** A string with no whitespace at either end is its own trim. */
  lemma TrimOfUnpadded(s: string)
    requires s != [] && !IsSpace(s[0]) && !IsSpace(s[|s| - 1])
    ensures Trim(s) == s
  {
  }

  /** `needle` occurs in `hay` starting at index `i`. */
  predicate OccursAt(hay: string, needle: string, i: int) {
    0 <= i && i + |needle| <= |hay| && hay[i..i + |needle|] == needle
  }

  /** `hay.includes(needle)`, searched left to right. */
  function Includes(hay: string, needle: string): (r: bool)
    ensures r <==> exists i :: OccursAt(hay, needle, i)
    decreases |hay|
  {
    if needle <= hay then
      assert OccursAt(hay, needle, 0);
      true
    else if hay == [] then
      assert forall i :: !OccursAt(hay, needle, i);
      false
    else
      var rest := Includes(hay[1..], needle);
      if rest then
        var i :| OccursAt(hay[1..], needle, i);
        assert hay[1..][i..i + |needle|] == hay[i + 1..i + 1 + |needle|];
        assert OccursAt(hay, needle, i + 1);
        true
      else
        forall i
          ensures !OccursAt(hay, needle, i)
        {
          if i == 0 {
            assert OccursAt(hay, needle, 0) ==> needle <= hay;
          } else if 1 <= i && i + |needle| <= |hay| {
            assert hay[1..][i - 1..i - 1 + |needle|] == hay[i..i + |needle|];
            assert OccursAt(hay, needle, i) ==> OccursAt(hay[1..], needle, i - 1);
          }
        }
        false
  }

  /**
   * JavaScript's `a <= b` on two strings, as lexicographic order on Unicode
   * scalar values, in which a proper prefix comes first. It agrees with
   * JavaScript's UTF-16 code-unit order except between a character from
   * U+E000 to U+FFFF and one above U+FFFF, which code units order the other way.
   */
  predicate LexLe(a: string, b: string) {
    if a == [] then true
    else if b == [] then false
    else if a[0] != b[0] then a[0] < b[0]
    else LexLe(a[1..], b[1..])
  }

  /** The first index at which `a` and `b` differ, or the length of the shorter one. */
  function CommonPrefix(a: string, b: string): (k: nat)
    ensures k <= |a| && k <= |b|
    ensures a[..k] == b[..k]
    ensures k < |a| && k < |b| ==> a[k] != b[k]
  {
    if a == [] || b == [] || a[0] != b[0] then 0
    else
      var k := CommonPrefix(a[1..], b[1..]);
      assert a[..k + 1] == [a[0]] + a[1..][..k];
      assert b[..k + 1] == [b[0]] + b[1..][..k];
      k + 1
  }

  /** The textbook definition of lexicographic order agrees with `LexLe`. */
  lemma {:induction false} LexLeIff(a: string, b: string)
    ensures LexLe(a, b) <==>
      var k := CommonPrefix(a, b);
      k == |a| || (k < |b| && a[k] < b[k])
  {
    if a == [] || b == [] || a[0] != b[0] {
    } else {
      LexLeIff(a[1..], b[1..]);
    }
  }

  lemma {:induction false} LexLeReflexive(a: string)
    ensures LexLe(a, a)
  {
    if a != [] {
      LexLeReflexive(a[1..]);
    }
  }

  lemma {:induction false} LexLeAntisymmetric(a: string, b: string)
    requires LexLe(a, b) && LexLe(b, a)
    ensures a == b
  {
    if a != [] && b != [] {
      LexLeAntisymmetric(a[1..], b[1..]);
      assert a == [a[0]] + a[1..];
      assert b == [b[0]] + b[1..];
    }
  }

  lemma {:induction false} LexLeTransitive(a: string, b: string, c: string)
    requires LexLe(a, b) && LexLe(b, c)
    ensures LexLe(a, c)
  {
    if a != [] && b != [] && c != [] && a[0] == b[0] && b[0] == c[0] {
      LexLeTransitive(a[1..], b[1..], c[1..]);
    }
  }

  lemma {:induction false} LexLeTotal(a: string, b: string)
    ensures LexLe(a, b) || LexLe(b, a)
  {
    if a != [] && b != [] && a[0] == b[0] {
      LexLeTotal(a[1..], b[1..]);
    }
  }

  /** `s.split(sep)[0]`: the text before the first `sep`, or all of `s` when there is none. */
  function BeforeFirst(s: string, sep: char): (r: string)
    ensures r <= s
    ensures sep !in r
    ensures |r| < |s| ==> s[|r|] == sep
  {
    if s == [] || s[0] == sep then []
    else [s[0]] + BeforeFirst(s[1..], sep)
  }

  /** Lowering changes no whitespace, so a lowered text is blank exactly when the text is. */
  lemma BlankLower(s: string)
    ensures Blank(Lower(s)) <==> Blank(s)
  {
    forall i | 0 <= i < |s|
      ensures IsSpace(Lower(s)[i]) <==> IsSpace(s[i])
    {
      assert Lower(s)[i] == LowerChar(s[i]);
    }
  }
}

=== FILE: txn_filters.dfy ===
/**
 * The filter form shared by the income and expense lists, and the criteria
 * both lists apply. Every field holds the text of its input; a criterion
 * whose text is empty is switched off.
 */
module TxnFilters {
  import opened Wrappers
  import opened Text
  import opened JsNumber
  import opened Records
  import opened Seqs

  datatype FilterSet = FilterSet(
    categoryId: string,
    amountMin: string,
    amountMax: string,
    dateFrom: string,
    dateTo: string,
    searchText: string)

  /** The state `clearFilters` restores. */
  const NoFilters := FilterSet("", "", "", "", "", "")

  /** `x.category?.id === Number(filters.categoryId)`. */
  predicate CategoryIs(category: Option<Category>, wanted: Num) {
    category.Some? && wanted == Finite(category.value.id as real)
  }

  /** `x.amount >= Number(filters.amountMin)`; a `NaN` bound admits nothing. */
  predicate AtLeast(amount: real, bound: Num) {
    bound.Finite? && amount >= bound.value
  }

  /** `x.amount <= Number(filters.amountMax)`. */
  predicate AtMost(amount: real, bound: Num) {
    bound.Finite? && amount <= bound.value
  }

  /** The search box takes part only when it holds a non-whitespace character. */
  predicate SearchActive(f: FilterSet) {
    Trim(f.searchText) != []
  }

  /** What is searched for: the whole search text, lowered but not trimmed. */
  function Needle(f: FilterSet): string {
    Lower(f.searchText)
  }

  /** `field?.toLowerCase().includes(text)`: a missing field never matches. */
  predicate FieldHas(field: Option<string>, needle: string) {
    field.Some? && Includes(Lower(field.value), needle)
  }

  /** The category criterion keeps exactly the records of the chosen category (chosen by its id's text). */
  lemma CategoryCriterionById(id: nat, category: Option<Category>)
    ensures CategoryIs(category, ToNumber(NatText(id))) <==> category.Some? && category.value.id == id
  {
    NumberOfNatText(id);
  }

  /** How a list reads the fields its filters look at, and which fields its search box searches. */
  datatype Fields<-T> = Fields(
    category: T -> Option<Category>,
    amount: T -> real,
    date: T -> string,
    searchHit: (T, string) -> bool)

  predicate CategoryOk<T>(fs: Fields<T>, f: FilterSet, x: T) {
    f.categoryId == "" || CategoryIs(fs.category(x), ToNumber(f.categoryId))
  }

  predicate MinOk<T>(fs: Fields<T>, f: FilterSet, x: T) {
    f.amountMin == "" || AtLeast(fs.amount(x), ToNumber(f.amountMin))
  }

  predicate MaxOk<T>(fs: Fields<T>, f: FilterSet, x: T) {
    f.amountMax == "" || AtMost(fs.amount(x), ToNumber(f.amountMax))
  }

  predicate FromOk<T>(fs: Fields<T>, f: FilterSet, x: T) {
    f.dateFrom == "" || LexLe(f.dateFrom, fs.date(x))
  }

  predicate ToOk<T>(fs: Fields<T>, f: FilterSet, x: T) {
    f.dateTo == "" || LexLe(fs.date(x), f.dateTo)
  }

  predicate SearchOk<T>(fs: Fields<T>, f: FilterSet, x: T) {
    !SearchActive(f) || fs.searchHit(x, Needle(f))
  }

  /** Every criterion that is switched on holds of `x`. */
  predicate Matches<T>(fs: Fields<T>, f: FilterSet, x: T) {
    && CategoryOk(fs, f, x) && MinOk(fs, f, x) && MaxOk(fs, f, x)
    && FromOk(fs, f, x) && ToOk(fs, f, x) && SearchOk(fs, f, x)
  }

  /** `if (switchedOn) filtered = filtered.filter(p)`. */
  function Step<T(==)>(xs: seq<T>, switchedOn: bool, p: T -> bool): seq<T> {
    if switchedOn then Filter(xs, p) else xs
  }

  /** `applyFilters`: one `filter` pass per criterion that is switched on, in the source's order. */
  function Apply<T(==)>(fs: Fields<T>, f: FilterSet, xs: seq<T>): seq<T> {
    var byCategory := Step(xs, f.categoryId != "", x => CategoryIs(fs.category(x), ToNumber(f.categoryId)));
    var byMin := Step(byCategory, f.amountMin != "", x => AtLeast(fs.amount(x), ToNumber(f.amountMin)));
    var byMax := Step(byMin, f.amountMax != "", x => AtMost(fs.amount(x), ToNumber(f.amountMax)));
    var byFrom := Step(byMax, f.dateFrom != "", x => LexLe(f.dateFrom, fs.date(x)));
    var byTo := Step(byFrom, f.dateTo != "", x => LexLe(fs.date(x), f.dateTo));
    Step(byTo, SearchActive(f), x => fs.searchHit(x, Needle(f)))
  }

  /** A pass that may be switched off is a filter by "switched off, or passes". */
  lemma StepIsFilter<T>(xs: seq<T>, switchedOn: bool, p: T -> bool, q: T -> bool)
    requires forall x :: q(x) == (!switchedOn || p(x))
    ensures Step(xs, switchedOn, p) == Filter(xs, q)
  {
    if !switchedOn {
      FilterKeepsAll(xs, q);
    } else {
      FilterCongruent(xs, p, q);
    }
  }

  /** Each pass of `applyFilters` filters by its criterion. */
  lemma ApplyAsChain<T>(fs: Fields<T>, f: FilterSet, xs: seq<T>)
    ensures Apply(fs, f, xs) ==
      Filter(Filter(Filter(Filter(Filter(Filter(xs,
        x => CategoryOk(fs, f, x)), x => MinOk(fs, f, x)), x => MaxOk(fs, f, x)),
        x => FromOk(fs, f, x)), x => ToOk(fs, f, x)), x => SearchOk(fs, f, x))
  {
    var s1 := Step(xs, f.categoryId != "", x => CategoryIs(fs.category(x), ToNumber(f.categoryId)));
    var s2 := Step(s1, f.amountMin != "", x => AtLeast(fs.amount(x), ToNumber(f.amountMin)));
    var s3 := Step(s2, f.amountMax != "", x => AtMost(fs.amount(x), ToNumber(f.amountMax)));
    var s4 := Step(s3, f.dateFrom != "", x => LexLe(f.dateFrom, fs.date(x)));
    var s5 := Step(s4, f.dateTo != "", x => LexLe(fs.date(x), f.dateTo));
    StepIsFilter(xs, f.categoryId != "", x => CategoryIs(fs.category(x), ToNumber(f.categoryId)), x => CategoryOk(fs, f, x));
    StepIsFilter(s1, f.amountMin != "", x => AtLeast(fs.amount(x), ToNumber(f.amountMin)), x => MinOk(fs, f, x));
    StepIsFilter(s2, f.amountMax != "", x => AtMost(fs.amount(x), ToNumber(f.amountMax)), x => MaxOk(fs, f, x));
    StepIsFilter(s3, f.dateFrom != "", x => LexLe(f.dateFrom, fs.date(x)), x => FromOk(fs, f, x));
    StepIsFilter(s4, f.dateTo != "", x => LexLe(fs.date(x), f.dateTo), x => ToOk(fs, f, x));
    StepIsFilter(s5, SearchActive(f), x => fs.searchHit(x, Needle(f)), x => SearchOk(fs, f, x));
  }

  /** The chain of passes is a single filter by the conjunction of the switched-on criteria. */
  lemma ApplyIsOnePass<T>(fs: Fields<T>, f: FilterSet, xs: seq<T>)
    ensures Apply(fs, f, xs) == Filter(xs, x => Matches(fs, f, x))
  {
    ApplyAsChain(fs, f, xs);
    var p1 := x => CategoryOk(fs, f, x);
    var p2 := x => MinOk(fs, f, x);
    var p3 := x => MaxOk(fs, f, x);
    var p4 := x => FromOk(fs, f, x);
    var p5 := x => ToOk(fs, f, x);
    var p6 := x => SearchOk(fs, f, x);
    var q2 := x => CategoryOk(fs, f, x) && MinOk(fs, f, x);
    var q3 := x => CategoryOk(fs, f, x) && MinOk(fs, f, x) && MaxOk(fs, f, x);
    var q4 := x => CategoryOk(fs, f, x) && MinOk(fs, f, x) && MaxOk(fs, f, x) && FromOk(fs, f, x);
    var q5 := x => CategoryOk(fs, f, x) && MinOk(fs, f, x) && MaxOk(fs, f, x) && FromOk(fs, f, x) && ToOk(fs, f, x);
    var c2 := Filter(Filter(xs, p1), p2);
    var c3 := Filter(c2, p3);
    var c4 := Filter(c3, p4);
    var c5 := Filter(c4, p5);
    assert c2 == Filter(xs, q2) by {
      FilterFuseInto(xs, p1, p2, q2);
    }
    assert c3 == Filter(xs, q3) by {
      FilterFuseInto(xs, q2, p3, q3);
    }
    assert c4 == Filter(xs, q4) by {
      FilterFuseInto(xs, q3, p4, q4);
    }
    assert c5 == Filter(xs, q5) by {
      FilterFuseInto(xs, q4, p5, q5);
    }
    FilterFuseInto(xs, q5, p6, x => Matches(fs, f, x));
  }

  /**
   * `applyFilters` keeps, in their original order, exactly the records that meet
   * every criterion that is switched on.
   */
  lemma ApplySpec<T>(fs: Fields<T>, f: FilterSet, xs: seq<T>)
    ensures IsSubsequence(Apply(fs, f, xs), xs)
    ensures forall x :: x in Apply(fs, f, xs) <==> x in xs && Matches(fs, f, x)
  {
    ApplyIsOnePass(fs, f, xs);
    FilterIsSubsequence(xs, x => Matches(fs, f, x));
  }

  /** With every field empty, `applyFilters` returns the loaded list unchanged. */
  lemma ApplyNoFilters<T>(fs: Fields<T>, xs: seq<T>)
    ensures Apply(fs, NoFilters, xs) == xs
  {
    ApplyIsOnePass(fs, NoFilters, xs);
    FilterKeepsAll(xs, x => Matches(fs, NoFilters, x));
  }

  /**
   * What `applyFilters` keeps, computed as one pass by the conjunction of the
   * switched-on criteria (`ApplyIsOnePass` equates it with the source's chain).
   */
  function Kept<T(==,!new)>(fs: Fields<T>, f: FilterSet, xs: seq<T>): (r: seq<T>)
    ensures IsSubsequence(r, xs)
    ensures forall x :: x in r <==> x in xs && Matches(fs, f, x)
    ensures f == NoFilters ==> r == xs
  {
    var matches := x => Matches(fs, f, x);
    FilterIsSubsequence(xs, matches);
    if f == NoFilters then FilterKeepsAll(xs, matches); Filter(xs, matches) else Filter(xs, matches)
  }

  /** The one pass and the chain of passes keep the same records in the same order. */
  lemma KeptIsApply<T(!new)>(fs: Fields<T>, f: FilterSet, xs: seq<T>)
    ensures Kept(fs, f, xs) == Apply(fs, f, xs)
  {
    ApplyIsOnePass(fs, f, xs);
  }

  /** With every field empty, every record passes and the search box is off. */
  lemma NoFiltersMatchAll<T>(fs: Fields<T>, x: T)
    ensures Matches(fs, NoFilters, x)
    ensures !SearchActive(NoFilters)
  {
  }

  /** A record without a category never passes a category criterion that is switched on. */
  lemma NullCategoryNeverMatches<T>(fs: Fields<T>, f: FilterSet, x: T)
    requires f.categoryId != "" && fs.category(x).None?
    ensures !Matches(fs, f, x)
  {
  }

  /** A search text of whitespace only is switched off; any other is searched for untrimmed. */
  lemma BlankSearchMatchesAll<T>(fs: Fields<T>, f: FilterSet, x: T)
    ensures Blank(f.searchText) ==> SearchOk(fs, f, x)
    ensures !Blank(f.searchText) ==> (SearchOk(fs, f, x) <==> fs.searchHit(x, Lower(f.searchText)))
  {
    TrimEmptyIffBlank(f.searchText);
  }

  /** The search is case-insensitive: two texts that lower alike filter alike. */
  lemma SearchIgnoresCase<T>(fs: Fields<T>, f: FilterSet, g: FilterSet, x: T)
    requires Lower(f.searchText) == Lower(g.searchText)
    ensures SearchActive(f) <==> SearchActive(g)
    ensures SearchOk(fs, f, x) <==> SearchOk(fs, g, x)
  {
    TrimEmptyIffBlank(f.searchText);
    TrimEmptyIffBlank(g.searchText);
    BlankLower(f.searchText);
    BlankLower(g.searchText);
  }
}

=== FILE: wrappers.dfy ===
/** Optional values: stands in for JavaScript `null`/`undefined` and Java `null`. */
module Wrappers {

  datatype Option<+T> = None | Some(value: T) {

    /** The wrapped value, or `default` when absent. */
    function GetOr(default: T): T {
      match this
      case Some(v) => v
      case None => default
    }
  }
}
